=== FILE: README.md ===
# linux-webserver in Dafny

A model of the request path of kocsob/linux-webserver, a small forking
HTTP/1.0 server written in C.

**Configuration (config.c).** `load_config` reads a flat `KEY = value` file
one line at a time with `parse_line`, then validates the record with
`check_config`. Here that is a fold over the file's lines
(`ConfigFile.ParseLines`) that stops at the first failing line, followed by
`ConfigFile.CheckConfig`.

**Connection counting (webserver.c).** The parent counts connections in
`conn_cnt`. The count goes up on every accepted connection. It goes down once
when the server sits at `maxconns` and blocks in `waitpid`. It goes down once
more for every finished child the non-blocking `waitpid` loop collects. Module
`Admission` keeps a ledger of the count and of the uncollected children, and
proves the count stays within `[0, maxconns]`.

**Answering a connection (response.c).** `response` does the following:

- `parse_request` (module `Request`) cuts the received buffer into lines and
  words with `strtok`.
- The request goes to `get_response`, `head_response` or `post_response`
  (module `Responders`).
- Every status other than 200 is followed by `error_handler`'s answer.

The bytes the server writes are modelled as strings built by `send_status`,
`send_header`, `send_content` and `resolve_http_code` (module `Wire`), with
the status lines of http_codes.h (module `HttpCodes`). Sockets and partial
writes are not (see "Left out").

**The outside world.** The file system, `sendfile` and the CGI subprocess are
an abstract environment (`Wire.Env`):

- the set of paths `access` accepts;
- the contents `stat` and `sendfile` see;
- a function from a shell command to the output `popen` yields (or to a
  failed spawn);
- the set of paths `sendfile` can transfer once they are open (a directory
  opens but cannot be sent).

**Quirks modelled as written.**

- `resolve_http_code` has no case for 202, so 202 gets an empty status line.
- When the error page cannot be read, `error_handler` sends the status line
  twice. It still sends the header, with the size `stat` reported.
- A GET whose file cannot be sent has already written "200 OK" and the
  header. The 500 error page then follows them.
- `strtok` keeps the disallowed characters in front of the CGI parameters,
  so `'x` stays `'x`.
- A failed `fork` leaves a unit in `conn_cnt` that no child will ever give
  back.

**Undefined behaviour.** Inputs on which the C code is undefined are
preconditions, with one exception: the `strncpy` padding overflow of the
"/" rewrite is not excluded and is named under "Left out". The
preconditions are:

- a buffer with no line at all;
- 256 lines or more;
- a GET target made only of `?`;
- a root directory and route that overflow the 256-byte path buffer;
- a full 10240-byte buffer with no NUL in it;
- an `atoi` that overflows `int`, on a line `load_config` actually reads (one
  up to and including the first failing line).

Each is named under "Left out".

## Model

| member | source | states |
|---|---|---|
| Strings.Tokens | response.c:133-138 | every token strtok returns is non-empty and free of the delimiters |
| Strings.TokensKeepContent | response.c:133-138 | the tokens hold every non-delimiter character of the string, in order |
| Strings.TokensOfJoin | response.c:159-165 | tokenising non-empty delimiter-free pieces joined by delimiters gives the pieces back |
| Strings.Atoi | config.c:69 | 0 when no sign or digit follows the leading whitespace; negative only after a '-' |
| Strings.AtoiOfIntToDec | config.c:69 | atoi reads back the decimal form of any integer followed by a non-digit |
| Strings.AtoiOfPadded | config.c:69 | atoi skips leading whitespace and leading zeros and honours a '+' or '-' sign, so "  +080" reads 80 and "-007" reads -7 |
| Strings.LeadingZerosIgnored | config.c:69 | leading zeros do not change the value of a digit string |
| Wire.ResolveHttpCodeIsCatalog | response.c:373-393 | every code the switch lists gets the line "HTTP/1.0", its three digits and its reason phrase; 202 and every code outside the switch get "" |
| Wire.StatusLineCase | http_codes.h:4-18 | each defined status line other than 202's is version, code and reason phrase separated by single spaces |
| Wire.StatusCodeReadsBack | response.c:300-306 | the line send_status writes starts with "HTTP/1.0 ", and atoi of what follows gives the code back |
| Wire.UnknownCodeGivesBareLine | response.c:300-306 | send_status writes a bare CRLF exactly for the codes resolve_http_code has no case for |
| Wire.ContentLengthReadsBack | response.c:308-317 | the header starts with the Content-Type line, atoi of the Content-Length field gives the size back, and the head ends with a blank line |
| Wire.FileSize | response.c:343-351 | the size is the file's length when stat succeeds and 0 when it fails |
| Wire.ResolveHttpCode | response.c:373-393 | the line is empty exactly for the codes the switch has no case for; every other line starts with "HTTP/1.0 " |
| Wire.SendStatus | response.c:300-306 | the status line always ends with CRLF, and is a bare CRLF exactly for the codes without a case |
| Wire.SendHeader | response.c:308-317 | the head opens with the Content-Type line and the Content-Length field name and ends with a blank line |
| Wire.SendContent | response.c:319-339 | the send succeeds exactly when the path opens and is sendable; it then transfers a prefix of the file, the requested size or the whole file when that is shorter |
| Wire.WholeFileSent | response.c:319-339 | send_content with the size stat reported succeeds exactly when the file opens and its path is sendable, and then it transfers the whole file |
| Responders.GetResponse | response.c:199-221 | 404 with nothing written iff the path is unreadable; 200 with head and whole file iff it is readable and its path is sendable; otherwise 500 after the 200 head |
| Responders.HeadResponse | response.c:223-239 | 200 with the head iff the path is readable, else 404 with nothing written; never a body |
| Responders.HeadIsGetWithoutBody | response.c:199-239 | HEAD and GET agree on 404; they agree on the status when the path is sendable; a GET writes the HEAD's output plus the file, or exactly the HEAD's output when the send fails |
| Responders.CutParams | response.c:247-248 | the cut parameters are a prefix of the parameters |
| Responders.CutParamsShape | response.c:247-248 | the CGI parameters after strtok: a prefix that ends at a disallowed character or at the end, keeps the skipped leading disallowed characters and holds none after its first allowed one |
| Responders.CutShapeUnique | response.c:247-248 | exactly one prefix has that shape, so the shape defines the cut |
| Responders.CutParamsIdempotent | response.c:247-248 | cutting the parameters a second time changes nothing |
| Responders.CutParamsClean | response.c:247-248 | parameters starting with an allowed character come out non-empty and free of space, quote and backtick |
| Responders.CutAtSpace | response.c:247-248 | everything from the first space on is dropped |
| Responders.LeadingQuoteKept | response.c:247-248 | a leading single quote survives the cut |
| Responders.CgiCommand | response.c:250-251 | the command is a prefix of the formatted command: all of it when it fits the 1024-byte buffer, and otherwise exactly its first 1023 characters, so an overlong command loses its tail, closing quote included |
| Responders.CommandQuotesParams | response.c:251 | a command that fits ends with the cut parameters between single quotes |
| Responders.PostResponse | response.c:241-270 | the command run is the formatted one; 500 with nothing written iff the spawn fails, else 200: the status line, an empty line and the command's whole output |
| Responders.ErrorPagePath | response.c:279 | the error page path is a prefix of "<err_dir>/<code>.html": all of it when that fits the 256-byte buffer, and otherwise exactly its first 255 characters |
| Responders.ErrorHandler | response.c:274-296 | every error answer opens with the status line of its code |
| Responders.ErrorHandlerParts | response.c:274-296 | the answer is the error head (status line twice when the page is unreadable, then the header with stat's size) and the body only for GET and POST when the page is sent |
| Responders.ErrorPageServed | response.c:274-296 | a readable page sent for GET or POST is the status line once, the header with the page's size, and the whole page |
| Request.MethodOf | response.c:140-156 | the method is the first of GET, HEAD, POST that prefixes the request line, and none exactly when no method name does |
| Request.ParseRequestLine | response.c:158-192 | the parse succeeds iff there is a method, at least three words and an HTTP/1.0 or HTTP/1.1 version; the method type survives a failure (HEAD when unknown); a parsed request is well formed and keeps the third word as its version; a GET's route and parameters are the first and second '?'-separated pieces of the target, so leading '?'s are skipped and the parameters stop at the next '?'; HEAD and POST keep the whole target, '?'s included; POST parameters are the buffer's last line, or the first word when there is no other line |
| Request.ParseRequest | response.c:126-195 | every request parse_request accepts has a non-empty blank-free route, a known version, no '?' in a GET route, parameters for POST and none for HEAD |
| Request.ParseSplit | response.c:132-138 | only the request line and the buffer's last line decide the parse |
| Request.ParseWrittenRequest | response.c:126-195 | a written request line parses back to its method, target and version, with the buffer's last line as POST parameters (the word "POST" when there is no other line) |
| Request.ParseWrittenQuery | response.c:182-185 | a GET target "route?query" parses to the route with the query as its parameters |
| Request.ParseWrittenLine | response.c:140-192 | a line whose first word starts with a method name, then a blank-free target and an HTTP/1.0 or HTTP/1.1 version, parses to that method and version, with the route and parameters rules of each method |
| Request.LeadingMarksSkipped | response.c:182-185 | a GET target "??route" parses to the route with no parameters: strtok skips the leading '?'s |
| Request.MarksKeptOutsideGet | response.c:176-192 | a HEAD or POST target is the route as it stands, '?'s included; HEAD has no parameters and POST has the trailer line, or the first word without one |
| Request.ParamsStopAtNextMark | response.c:182-185 | a GET target "route?query?tail" parses to the route with only "query" as its parameters |
| Request.SinglePostLine | response.c:132-138 | a POST buffer holding only its request line takes its first word ("POST" or what follows it up to the space) as the parameters |
| Dispatch.Serve | response.c:80-109 | a parsed request ends in 200, 400, 404 or 500; a command runs iff it is a POST under "/cgi/"; any other POST is 400 with nothing written |
| Dispatch.Handle | response.c:65-110 | a request that does not parse is 400 with nothing written |
| Dispatch.Answer | response.c:112-116 | the reply keeps the handler's status, command and output; nothing follows a 200, and any other status is followed by exactly error_handler's answer for that status and the parse's method type, which opens with that status's line |
| Dispatch.Respond | response.c:60-123 | a failed recv gets no reply; every other reply's status is 200, 400, 404 or 500 |
| Dispatch.MalformedIsBadRequest | response.c:65-116 | a request that does not parse is answered with the 400 error page, chosen by the method type the parse left behind |
| Dispatch.IndexRewrite | response.c:83-88 | GET "/" is answered exactly as GET "/index.html" |
| Dispatch.HeadNeverHasBody | response.c:91-94 | a HEAD is answered with the 200 head of a readable file, or with the head of the 404 page, never with a body |
| Dispatch.PostOutsideCgiRejected | response.c:95-106 | a POST outside "/cgi/" runs nothing and is answered with the 400 error page |
| Dispatch.CommandOnlyForCgiPost | response.c:95-106 | a command is run iff the request is a parsed POST under "/cgi/", and it is the command built from the rest of the route and the parameters |
| Dispatch.StatusLineFirst | response.c:112-116 | every answer opens with its own status line, except a GET ending in 500, which opens with "200 OK" |
| Dispatch.OkOutcomeOpensWithStatus | response.c:80-109 | whatever handler answers 200 writes the 200 status line first |
| Dispatch.DefinedWhenParsed | response.c:68-78 | received bytes that fit the zeroed buffer are parsed as they are, and response is defined on them |
| Dispatch.GetServed | response.c:82-90 | GET of a readable file that sendfile can send answers 200: status line, header with the file size, the file |
| Dispatch.GetNotFound | response.c:82-90 | GET of an unreadable path answers 404 with the 404 error page and nothing before it |
| Dispatch.GetSendFails | response.c:207-217 | GET of a readable path that cannot be sent answers 500: the 200 head, then the 500 error answer, which carries the whole 500 page when that page is readable and sendable |
| Dispatch.StaticFileServed | response.c:60-123 | received bytes that parse as a GET of a readable file get 200, the header with its size, and the whole file |
| Dispatch.MissingFileNotFound | response.c:60-123 | received bytes that parse as a GET of an unreadable path get the 404 error page |
| Dispatch.CgiPostAnswered | response.c:95-116 | a POST under "/cgi/" runs the built command; its output follows the 200 status line and an empty line, and a failed spawn gets the 500 error page |
| ConfigFile.KeyOf | config.c:66-120 | a word names a key exactly when it is that key's spelling |
| ConfigFile.ScanKeyValue | config.c:64 | both conversions succeed only with a non-empty, whitespace-free key and value |
| ConfigFile.ScanLaidOut | config.c:64 | any line laid out as whitespace, key, whitespace, '=', optional whitespace, value and then whitespace or the end reads back that key and value; later words are ignored |
| ConfigFile.GluedPairIgnored | config.c:64 | a key glued to its '=' and value in one word reads no pair |
| ConfigFile.PortWithoutSpacesIgnored | config.c:57-66 | the line "PORT=80" assigns nothing |
| ConfigFile.ScanWrittenPair | config.c:63-64 | sscanf reads back the key and value of a written "key = value" line |
| ConfigFile.WrittenLineEntry | config.c:57-120 | a written line for a known key assigns that key the written value |
| ConfigFile.WrittenLineAssigns | config.c:52-123 | a written line sets its own field and no other, and fails only for PORT or MAXCONNS reading as 0 |
| ConfigFile.Entry | config.c:57-66 | a comment assigns nothing; an assignment is a scanned pair whose key word is a key's spelling, and a scanned pair with any other key word assigns nothing |
| ConfigFile.Store | config.c:66-120 | the write gives the key's field the decoded value and leaves every other field alone |
| ConfigFile.Assign | config.c:66-120 | a key's line fails iff it is PORT or MAXCONNS and atoi gives 0; otherwise it stores the decoded value in that key's field and changes no other |
| ConfigFile.ParseLine | config.c:52-123 | comments and lines that are not a known "key = value" leave the record alone; a line fails iff it is a rejected PORT or MAXCONNS |
| ConfigFile.CheckConfig | config.c:125-159 | the record passes iff port > 0, maxconns > 0 and dns is 0 or 1 |
| ConfigFile.ParseLines | config.c:37-45 | reading fails exactly when some line, wherever it is, is rejected; only the lines up to the first rejected one need their numbers to fit an int |
| ConfigFile.StopsAtFirstFailure | config.c:38-45 | a rejected first line makes the load fail whatever the lines after it hold, since they are never read |
| ConfigFile.LoadConfig | config.c:22-50 | a missing file fails; a record loads exactly when the file opens, no line is rejected and the record the file describes passes check_config; the loaded record is that record, with port > 0, maxconns > 0 and dns 0 or 1 |
| ConfigFile.LastAssignmentWins | config.c:37-45 | every field holds the value of the last line assigning it, or its starting value |
| ConfigFile.ParsedIsSettled | config.c:22-45 | reading from the zeroed record gives exactly the record where each key holds its last assignment, or zero |
| Admission.ReapFinished | webserver.c:181-185 | the non-blocking waitpid loop collects every finished child and takes one unit off the count for each |
| Admission.Gate | webserver.c:150-155 | below the ceiling nothing changes; at it the count drops by one and one uncollected child, if any, is collected |
| Admission.Admit | webserver.c:162-172 | an accepted connection raises the count by one; only a successful fork adds a child |
| Admission.Reap | webserver.c:181-185 | every finished child is collected, running children stay, and the count units no child holds are unchanged |
| Admission.Round | webserver.c:147-187 | after a pass that accepted a connection no finished child is left uncollected; a pass adds at most the one child it forked |
| Admission.Run | webserver.c:147-187 | the uncollected children never outnumber the accepted connections |
| Admission.GateMakesRoom | webserver.c:149-155 | after the ceiling check the count is below maxconns and not negative; below the ceiling nothing changes, at it the count drops by exactly one and so do the uncollected children, if there were any |
| Admission.RoundKeepsInvariant | webserver.c:147-187 | one pass of the main loop keeps the count within [0, maxconns] and no smaller than the uncollected children |
| Admission.RunKeepsInvariant | webserver.c:25 | from a count of 0, every reachable count stays within [0, maxconns], so at most maxconns children run |
| Admission.GatePhantoms | webserver.c:150-155 | the ceiling check never adds a count unit that no child holds, and under the invariant keeps there being none |
| Admission.AdmitPhantoms | webserver.c:162-172 | accept and fork add exactly one unheld count unit when the fork fails, and none otherwise |
| Admission.RoundPhantoms | webserver.c:168-179 | only a failed fork adds a count unit no child holds, at most one per pass |
| Admission.ExactWithoutForkFailure | webserver.c:147-187 | without a failed fork the count is exactly the number of uncollected children |
| Admission.ForkFailureCounts | webserver.c:170-172 | a failed fork leaves one counted connection with no child behind |
| Admission.AcceptFailureCollectsNothing | webserver.c:162-167 | a failed accept collects no child after the ceiling check |
| Admission.ZeroCeilingUnderflows | webserver.c:150-155 | with maxconns 0 and a count of 0 the ceiling check fires and the count drops to -1, outside [0, maxconns] |
| Admission.LoadedConfigAdmits | webserver.c:147-187 | under any maxconns load_config accepts, the loop keeps the count within bounds |
| Admission.Serve | webserver.c:147-187 | the loop over a sequence of events ends in the ledger the passes define, within bounds, having accepted as many connections as succeeded |

## Left out

- Sockets, `recv` and `write`, `syslog`, `resolve_addr`, daemonizing, privilege dropping and everything `main` does before its loop are I/O. They are not modelled.
- Request.ParseRequest: requires at least one line, fewer than 256 lines, and no GET target made only of '?'. On other inputs `parse_request` reads NULL or writes past its line array.
- Responders.GetResponse: requires root directory and route together shorter than 256 bytes. Past that, `strncat` writes outside the path buffer. The same holds for Responders.HeadResponse and Dispatch.ServeDefined.
- Dispatch.Defined: a full 10240-byte receive with no NUL in it leaves the buffer unterminated, so it is excluded.
- Dispatch.IndexRewrite: `strncpy` pads "/index.html" to 256 bytes inside the request buffer. That can run past the buffer when "/" sits within 256 bytes of its end. This overflow is not modelled.
- ConfigFile.ParseLine: requires that numeric values fit an `int`. `atoi` overflow is undefined. ConfigFile.ParseLines and ConfigFile.LoadConfig ask this only of the lines read up to the first failing one.
- ConfigFile.LoadConfig: the lines are those `fgets` returns. Splitting lines longer than 1023 characters into chunks is not modelled.
- Wire.FileSize: `st_size` narrowed to `int` is taken as the file's length. Files of 2 GiB or more are not modelled.
- Wire.Env: `sendfile` on an open path either transfers the whole file or fails, and which one happens is fixed per path by `sendable`. Partial sends, short `write`s and failures that come and go are not modelled.
- Responders.PostResponse: the command's output is whatever the environment says `popen` yields. Shell semantics, the never-closed pipe and `read` errors are not modelled.
- Admission: a blocking `waitpid` is taken to collect one child when any exists. EINTR is not modelled: no signal handler is installed.
- Admission: the child's own work after `fork` is not modelled. That work is `response`, which the Dispatch module models.
- `send_header` lines and status lines are far shorter than their 1024-byte buffer, so `snprintf` never truncates them. That truncation is not modelled.
- The log line `response` writes after answering is not modelled.

=== FILE: admission.dfy ===
/**
 * The parent's connection count in webserver.c: `conn_cnt` goes up for every
 * accepted connection, down once when the server sits at `maxconns` and
 * blocks in `waitpid`, and down for every finished child the non-blocking
 * `waitpid` loop collects after a fork.
 *
 * The ledger keeps, beside the count, the children the parent has not
 * collected yet: those still serving (`running`) and those that have exited
 * and wait to be collected (`finished`).
 */
module Admission {
  import opened Options
  import opened ConfigFile

  datatype Ledger = Ledger(connCnt: int, running: nat, finished: nat)

  /** The count the server starts with. */
  const Start := Ledger(0, 0, 0)

  /** Children the parent still has to collect. */
  function Children(s: Ledger): nat {
    s.running + s.finished
  }

  /**
   * What the count promises: it never exceeds the ceiling or drops below
   * zero, and every uncollected child holds a unit of it.
   */
  predicate Inv(s: Ledger, max: int) {
    0 <= s.connCnt <= max && Children(s) <= s.connCnt
  }

  /** Units of the count that no child holds (left by a failed `fork`). */
  function Phantoms(s: Ledger): int {
    s.connCnt - Children(s)
  }

  /** Up to `k` running children exit and become collectable. */
  function ChildrenExit(s: Ledger, k: nat): (t: Ledger)
    ensures t.connCnt == s.connCnt && Children(t) == Children(s)
    ensures t.finished == s.finished + (if k <= s.running then k else s.running)
  {
    var n := if k <= s.running then k else s.running;
    Ledger(s.connCnt, s.running - n, s.finished + n)
  }

  /**
   * At the ceiling the parent blocks in `waitpid(-1, NULL, 0)`: it collects
   * a finished child, or waits for a running one to finish, or returns at
   * once when it has no child at all. The count goes down in every case.
   */
  function Gate(s: Ledger, max: int): (g: Ledger)
    ensures s.connCnt < max ==> g == s
    ensures s.connCnt >= max ==> g.connCnt == s.connCnt - 1
    ensures s.connCnt >= max ==> Children(g) == if Children(s) > 0 then Children(s) - 1 else 0
  {
    if s.connCnt < max then s
    else if s.finished > 0 then Ledger(s.connCnt - 1, s.running, s.finished - 1)
    else if s.running > 0 then Ledger(s.connCnt - 1, s.running - 1, s.finished)
    else Ledger(s.connCnt - 1, s.running, s.finished)
  }

  /** What `accept` and, after it, `fork` do. */
  datatype Accept = AcceptFailed | Accepted(forked: bool)

  /** An accepted connection raises the count; only a successful fork adds a child. */
  function Admit(s: Ledger, a: Accept): (t: Ledger)
    ensures t.connCnt == s.connCnt + (if a.Accepted? then 1 else 0)
    ensures Children(t) == Children(s) + (if a == Accepted(true) then 1 else 0)
    ensures t.finished == s.finished
  {
    match a
    case AcceptFailed => s
    case Accepted(forked) => Ledger(s.connCnt + 1, s.running + (if forked then 1 else 0), s.finished)
  }

  /** The `WNOHANG` loop: every finished child is collected, one decrement each. */
  function Reap(s: Ledger): (t: Ledger)
    ensures t.finished == 0 && t.running == s.running
    ensures Phantoms(t) == Phantoms(s)
  {
    Ledger(s.connCnt - s.finished, s.running, 0)
  }

  /** The `WNOHANG` loop as the source runs it, one child per iteration. */
  method ReapFinished(s: Ledger) returns (t: Ledger)
    ensures t == Reap(s)
  {
    t := s;
    while t.finished > 0
      invariant t.running == s.running
      invariant t.connCnt - t.finished == s.connCnt - s.finished
      decreases t.finished
    {
      t := Ledger(t.connCnt - 1, t.running, t.finished - 1);
    }
  }

  /**
   * What happens in one pass of the main loop: children exiting before the
   * ceiling check, the outcome of `accept` and `fork`, and children exiting
   * between `accept` and the collecting loop.
   */
  datatype Events = Events(before: nat, accept: Accept, after: nat)

  /** One pass of the main loop; the collecting loop only runs after an accepted connection. */
  function Round(s: Ledger, max: int, e: Events): (t: Ledger)
    ensures e.accept.Accepted? ==> t.finished == 0
    ensures Children(t) <= Children(s) + (if e.accept == Accepted(true) then 1 else 0)
  {
    var gated := Gate(ChildrenExit(s, e.before), max);
    var admitted := ChildrenExit(Admit(gated, e.accept), e.after);
    if e.accept.Accepted? then Reap(admitted) else admitted
  }

  /** The ledger after a sequence of passes from the start. */
  function Run(max: int, es: seq<Events>): (s: Ledger)
    ensures Children(s) <= AcceptCount(es)
  {
    if es == [] then Start else Round(Run(max, es[..|es| - 1]), max, es[|es| - 1])
  }

  /** Connections accepted over a sequence of passes. */
  function AcceptCount(es: seq<Events>): nat {
    if es == [] then 0 else AcceptCount(es[..|es| - 1]) + (if es[|es| - 1].accept.Accepted? then 1 else 0)
  }

  /** The gate leaves room for one more connection whenever the invariant holds. */
  lemma GateMakesRoom(s: Ledger, max: int)
    requires max >= 1 && Inv(s, max)
    ensures var g := Gate(s, max);
      g.connCnt < max && 0 <= g.connCnt && Children(g) <= g.connCnt
      && (s.connCnt < max ==> g == s)
      && (s.connCnt >= max ==> g.connCnt == s.connCnt - 1)
      && (s.connCnt >= max ==> Children(g) == Children(s) - 1 || Children(s) == 0)
  {
  }

  /** A pass keeps the count within [0, maxconns] and above the uncollected children. */
  lemma RoundKeepsInvariant(s: Ledger, max: int, e: Events)
    requires max >= 1 && Inv(s, max)
    ensures Inv(Round(s, max, e), max)
  {
    GateMakesRoom(ChildrenExit(s, e.before), max);
  }

  /** Every reachable ledger keeps the invariant, so no more than maxconns children ever run. */
  lemma {:induction false} RunKeepsInvariant(max: int, es: seq<Events>)
    requires max >= 1
    ensures Inv(Run(max, es), max)
    ensures Run(max, es).running <= max
  {
    if es != [] {
      RunKeepsInvariant(max, es[..|es| - 1]);
      RoundKeepsInvariant(Run(max, es[..|es| - 1]), max, es[|es| - 1]);
    }
  }

  /** Children exiting move between running and finished; the phantom units stay. */
  lemma ExitPhantoms(s: Ledger, k: nat)
    ensures Phantoms(ChildrenExit(s, k)) == Phantoms(s)
  {
  }

  /** The gate never adds a phantom unit, and under the invariant keeps none when there was none. */
  lemma GatePhantoms(s: Ledger, max: int)
    requires max >= 1 && Inv(s, max)
    ensures Phantoms(Gate(s, max)) <= Phantoms(s)
    ensures Phantoms(s) == 0 ==> Phantoms(Gate(s, max)) == 0
  {
  }

  /** `accept` and `fork`: exactly one phantom unit for a failed fork, none otherwise. */
  lemma AdmitPhantoms(s: Ledger, a: Accept)
    ensures Phantoms(Admit(s, a)) == Phantoms(s) + (if a == Accepted(false) then 1 else 0)
  {
  }

  /** The stages of a pass, as ledgers a proof can name one at a time. */
  lemma RoundStages(s: Ledger, max: int, e: Events)
    ensures var admitted := ChildrenExit(Admit(Gate(ChildrenExit(s, e.before), max), e.accept), e.after);
      Phantoms(Round(s, max, e)) == Phantoms(admitted)
  {
  }

  /** A pass adds a phantom unit only when `fork` fails, and at most one. */
  lemma RoundPhantoms(s: Ledger, max: int, e: Events)
    requires max >= 1 && Inv(s, max)
    ensures Phantoms(Round(s, max, e)) <= Phantoms(s) + (if e.accept == Accepted(false) then 1 else 0)
    ensures e.accept != Accepted(false) && Phantoms(s) == 0 ==> Phantoms(Round(s, max, e)) == 0
  {
    var exited := ChildrenExit(s, e.before);
    ExitPhantoms(s, e.before);
    var gated := Gate(exited, max);
    GatePhantoms(exited, max);
    var accepted := Admit(gated, e.accept);
    AdmitPhantoms(gated, e.accept);
    ExitPhantoms(accepted, e.after);
    RoundStages(s, max, e);
  }

  /** Without a failed fork the count is exactly the number of uncollected children. */
  lemma {:induction false} ExactWithoutForkFailure(max: int, es: seq<Events>)
    requires max >= 1
    requires forall i :: 0 <= i < |es| ==> es[i].accept != Accepted(false)
    ensures Run(max, es).connCnt == Children(Run(max, es))
  {
    if es != [] {
      var init := es[..|es| - 1];
      assert forall i :: 0 <= i < |init| ==> init[i] == es[i];
      ExactWithoutForkFailure(max, init);
      RunKeepsInvariant(max, init);
      RoundPhantoms(Run(max, init), max, es[|es| - 1]);
    }
  }

  /** A failed fork still counts a connection that no child serves. */
  lemma ForkFailureCounts(s: Ledger, max: int, before: nat, after: nat)
    requires max >= 1 && Inv(s, max) && Phantoms(s) == 0
    ensures Phantoms(Round(s, max, Events(before, Accepted(false), after))) == 1
  {
    var e := Events(before, Accepted(false), after);
    var exited := ChildrenExit(s, before);
    ExitPhantoms(s, before);
    var gated := Gate(exited, max);
    GatePhantoms(exited, max);
    var accepted := Admit(gated, Accepted(false));
    AdmitPhantoms(gated, Accepted(false));
    ExitPhantoms(accepted, after);
    RoundStages(s, max, e);
  }

  /** A failed `accept` changes the count only through the gate and collects nothing afterwards. */
  lemma AcceptFailureCollectsNothing(s: Ledger, max: int, before: nat, after: nat)
    ensures var g := Gate(ChildrenExit(s, before), max);
      var t := Round(s, max, Events(before, AcceptFailed, after));
      t.connCnt == g.connCnt && Children(t) == Children(g)
  {
  }

  /** With a ceiling of 0 the gate fires on a count of 0 and drives it below zero. */
  lemma ZeroCeilingUnderflows(s: Ledger)
    requires s.connCnt == 0
    ensures Gate(s, 0).connCnt == -1 && !Inv(Gate(s, 0), 0)
  {
  }

  /** A configuration `load_config` accepts gives the loop a ceiling the invariant can live under. */
  lemma LoadedConfigAdmits(file: Option<seq<string>>, es: seq<Events>)
    requires file.Some? ==> FitUntilFailure(file.value)
    requires LoadConfig(file).Some?
    ensures var max := LoadConfig(file).value.maxconns;
      Inv(Run(max, es), max) && Run(max, es).running <= max
  {
    RunKeepsInvariant(LoadConfig(file).value.maxconns, es);
  }

  /** The main loop over a sequence of passes, with the collecting loop run as the source runs it. */
  method Serve(max: int, es: seq<Events>) returns (s: Ledger, accepted: nat)
    requires max >= 1
    ensures s == Run(max, es) && Inv(s, max)
    ensures accepted == AcceptCount(es)
  {
    s, accepted := Start, 0;
    var i := 0;
    while i < |es|
      invariant 0 <= i <= |es|
      invariant s == Run(max, es[..i]) && Inv(s, max)
      invariant accepted == AcceptCount(es[..i])
    {
      var e := es[i];
      var next := es[..i + 1];
      assert next[..i] == es[..i] && next[i] == e;
      assert Run(max, next) == Round(s, max, e);
      assert AcceptCount(next) == accepted + (if e.accept.Accepted? then 1 else 0);
      RoundKeepsInvariant(s, max, e);
      var admitted := ChildrenExit(Admit(Gate(ChildrenExit(s, e.before), max), e.accept), e.after);
      if e.accept.Accepted? {
        s := ReapFinished(admitted);
        accepted := accepted + 1;
      } else {
        s := admitted;
      }
      i := i + 1;
    }
    assert es[..|es|] == es;
  }
}

=== FILE: config.dfy ===
/**
 * The configuration record (config.h) and the flat `KEY = value` reader that
 * fills it (config.c): one line at a time, then a validation pass.
 */
module ConfigFile {
  import opened Options
  import opened Strings

  /** Size of every path and name buffer in the record. */
  const PATHSIZE := 256

  /** Longest token `%255s` stores. */
  const TOKENMAX := PATHSIZE - 1

  datatype Config = Config(
    port: int,
    maxconns: int,
    user: string,
    rootDir: string,
    errDir: string,
    cgiCmd: string,
    cgiDir: string,
    syslogName: string,
    dns: int)

  /** The record after `memset(conf, 0, sizeof(config))`. */
  const Zero := Config(0, 0, "", "", "", "", "", "", 0)

  /** The keys `parse_line` recognises. */
  datatype Key = Port | MaxConns | User | RootDir | ErrDir | CgiCmd | CgiDir | SyslogName | Dns

  /** The spelling of a key in the file (config.c:8-16). */
  function KeyName(k: Key): string {
    match k
    case Port => "PORT"
    case MaxConns => "MAXCONNS"
    case User => "USER"
    case RootDir => "ROOT_DIR"
    case ErrDir => "ERR_DIR"
    case CgiCmd => "CGI_CMD"
    case CgiDir => "CGI_DIR"
    case SyslogName => "SYSLOG_NAME"
    case Dns => "DNS"
  }

  /** The `strncmp` chain of `parse_line`: which key a word names, if any. */
  function KeyOf(word: string): (r: Option<Key>)
    ensures r.Some? ==> KeyName(r.value) == word
    ensures r.None? ==> forall k :: KeyName(k) != word
  {
    if word == "PORT" then Some(Port)
    else if word == "MAXCONNS" then Some(MaxConns)
    else if word == "USER" then Some(User)
    else if word == "ROOT_DIR" then Some(RootDir)
    else if word == "ERR_DIR" then Some(ErrDir)
    else if word == "CGI_CMD" then Some(CgiCmd)
    else if word == "CGI_DIR" then Some(CgiDir)
    else if word == "SYSLOG_NAME" then Some(SyslogName)
    else if word == "DNS" then Some(Dns)
    else None
  }

  /** Keys whose value is read with `atoi`. */
  predicate Numeric(k: Key) {
    k == Port || k == MaxConns || k == Dns
  }

  datatype Setting = Num(n: int) | Text(s: string)

  /** The field of the record a key names. */
  function Get(c: Config, k: Key): Setting {
    match k
    case Port => Num(c.port)
    case MaxConns => Num(c.maxconns)
    case User => Text(c.user)
    case RootDir => Text(c.rootDir)
    case ErrDir => Text(c.errDir)
    case CgiCmd => Text(c.cgiCmd)
    case CgiDir => Text(c.cgiDir)
    case SyslogName => Text(c.syslogName)
    case Dns => Num(c.dns)
  }

  /** What a value word is stored as under a key. */
  function Decode(k: Key, value: string): Setting {
    if Numeric(k) then Num(Atoi(value)) else Text(value)
  }

  /** A C `int`. */
  predicate InInt(i: int) {
    -0x8000_0000 <= i < 0x8000_0000
  }

  /** One `%255s` conversion: skip whitespace, take at most 255 non-whitespace characters. */
  function ScanWord(s: string): (w: string)
    ensures NoneIn(w, Whitespace) && |w| <= TOKENMAX
  {
    Truncate(Token(SkipDelims(s, Whitespace), Whitespace), TOKENMAX)
  }

  /**
   * `sscanf(line, "%255s = %255s\n", key, value)` when it converts both
   * fields: a key word, optional whitespace, a literal '=', then a value word.
   */
  function ScanKeyValue(line: string): (r: Option<(string, string)>)
    ensures r.Some? ==> r.value.0 != [] && NoneIn(r.value.0, Whitespace)
    ensures r.Some? ==> r.value.1 != [] && NoneIn(r.value.1, Whitespace)
  {
    var a := SkipDelims(line, Whitespace);
    var key := ScanWord(a);
    var b := SkipDelims(a[|key|..], Whitespace);
    if key == [] || b == [] || b[0] != '=' then None
    else
      var value := ScanWord(b[1..]);
      if value == [] then None else Some((key, value))
  }

  /** The assignment a line makes: none for a comment, a line without `key = value`, or an unknown key. */
  function Entry(line: string): (r: Option<(Key, string)>)
    ensures |line| > 0 && line[0] == '#' ==> r.None?
    ensures r.Some? ==> ScanKeyValue(line) == Some((KeyName(r.value.0), r.value.1))
    ensures r.None? && !(|line| > 0 && line[0] == '#') && ScanKeyValue(line).Some? ==>
      KeyOf(ScanKeyValue(line).value.0).None?
  {
    if |line| > 0 && line[0] == '#' then None
    else
      var scanned := ScanKeyValue(line);
      if scanned.None? then None
      else
        var key := KeyOf(scanned.value.0);
        if key.None? then None else Some((key.value, scanned.value.1))
  }

  /** Lines whose `atoi` result fits an `int` (overflow is undefined in C). */
  predicate AtoiFits(line: string) {
    Entry(line).Some? && Numeric(Entry(line).value.0) ==> InInt(Atoi(Entry(line).value.1))
  }

  /** A line `parse_line` reports as failing: a PORT or MAXCONNS value that reads as 0. */
  predicate Rejects(line: string) {
    Entry(line).Some? && Entry(line).value.0 in {Port, MaxConns} && Atoi(Entry(line).value.1) == 0
  }

  /** The field write of one recognised line: `atoi` or `strncpy` into the field `k` names. */
  function Store(c: Config, k: Key, value: string): (r: Config)
    ensures Get(r, k) == Decode(k, value)
    ensures forall k' :: k' != k ==> Get(r, k') == Get(c, k')
  {
    match k
    case Port => c.(port := Atoi(value))
    case MaxConns => c.(maxconns := Atoi(value))
    case User => c.(user := value)
    case RootDir => c.(rootDir := value)
    case ErrDir => c.(errDir := value)
    case CgiCmd => c.(cgiCmd := value)
    case CgiDir => c.(cgiDir := value)
    case SyslogName => c.(syslogName := value)
    case Dns => c.(dns := Atoi(value))
  }

  /** The effect of one recognised `key = value` line: the write, then the zero test on PORT and MAXCONNS. */
  function Assign(c: Config, k: Key, value: string): (r: Option<Config>)
    ensures r.None? <==> k in {Port, MaxConns} && Atoi(value) == 0
    ensures r.Some? ==> Get(r.value, k) == Decode(k, value)
    ensures r.Some? ==> forall k' :: k' != k ==> Get(r.value, k') == Get(c, k')
  {
    var written := Store(c, k, value);
    if (k == Port || k == MaxConns) && Get(written, k) == Num(0) then None else Some(written)
  }

  /** `parse_line`: None is EXIT_FAILURE; otherwise the updated record. */
  function ParseLine(line: string, c: Config): (r: Option<Config>)
    requires AtoiFits(line)
    ensures (|line| > 0 && line[0] == '#') ==> r == Some(c)
    ensures Entry(line).None? ==> r == Some(c)
    ensures r.None? <==> Rejects(line)
  {
    match Entry(line)
    case None => Some(c)
    case Some((k, value)) => Assign(c, k, value)
  }

  /** `check_config`: the record is usable by the server. */
  function CheckConfig(c: Config): (ok: bool)
    ensures ok <==> c.port > 0 && c.maxconns > 0 && (c.dns == 0 || c.dns == 1)
  {
    if c.port <= 0 then false
    else if c.maxconns <= 0 then false
    // The NULL tests on user, root_dir, err_dir, cgi_dir and syslog_name test
    // array fields, which are never NULL: they never fail.
    else if c.dns != 0 && c.dns != 1 then false
    else true
  }

  predicate AllFit(lines: seq<string>) {
    forall i :: 0 <= i < |lines| ==> AtoiFits(lines[i])
  }

  /** The lines `load_config` reads (every line up to the first failing one) have `atoi` results that fit. */
  predicate FitUntilFailure(lines: seq<string>) {
    forall i :: 0 <= i < |lines| && (forall j :: 0 <= j < i ==> !Rejects(lines[j])) ==> AtoiFits(lines[i])
  }

  /** The `while (fgets(…))` loop of `load_config`: stop at the first failing line. */
  function ParseLines(lines: seq<string>, c: Config): (r: Option<Config>)
    requires FitUntilFailure(lines)
    ensures r.None? <==> exists i :: 0 <= i < |lines| && Rejects(lines[i])
  {
    if lines == [] then Some(c)
    else
      SomeLine(lines, Rejects);
      assert AtoiFits(lines[0]);
      match ParseLine(lines[0], c)
      case None => None
      case Some(c') =>
        GoodUntilBad(lines, Rejects, AtoiFits);
        ParseLines(lines[1..], c')
  }

  /** When the first line is not bad, "good up to the first bad line" carries over to the rest. */
  lemma GoodUntilBad(lines: seq<string>, bad: string -> bool, good: string -> bool)
    requires lines != [] && !bad(lines[0])
    requires forall i :: 0 <= i < |lines| && (forall j :: 0 <= j < i ==> !bad(lines[j])) ==> good(lines[i])
    ensures forall i :: 0 <= i < |lines[1..]| && (forall j :: 0 <= j < i ==> !bad(lines[1..][j])) ==> good(lines[1..][i])
  {
    var rest := lines[1..];
    forall i | 0 <= i < |rest| && (forall j :: 0 <= j < i ==> !bad(rest[j]))
      ensures good(rest[i])
    {
      forall j | 0 <= j < i + 1
        ensures !bad(lines[j])
      {
        if j > 0 {
          assert lines[j] == rest[j - 1];
        }
      }
      assert lines[i + 1] == rest[i];
    }
  }

  /** With no line bad, "good up to the first bad line" is "every line good". */
  lemma GoodEverywhere(lines: seq<string>, bad: string -> bool, good: string -> bool)
    requires forall i :: 0 <= i < |lines| && (forall j :: 0 <= j < i ==> !bad(lines[j])) ==> good(lines[i])
    requires forall i :: 0 <= i < |lines| ==> !bad(lines[i])
    ensures forall i :: 0 <= i < |lines| ==> good(lines[i])
  {
  }

  /** A line with property `p` is the first one or one of the rest. */
  lemma SomeLine(lines: seq<string>, p: string -> bool)
    requires lines != []
    ensures (exists i :: 0 <= i < |lines| && p(lines[i])) <==>
      p(lines[0]) || exists j :: 0 <= j < |lines[1..]| && p(lines[1..][j])
  {
    var rest := lines[1..];
    if exists i :: 0 <= i < |lines| && p(lines[i]) {
      var i :| 0 <= i < |lines| && p(lines[i]);
      if i > 0 {
        assert rest[i - 1] == lines[i];
      }
    }
    if exists j :: 0 <= j < |rest| && p(rest[j]) {
      var j :| 0 <= j < |rest| && p(rest[j]);
      assert lines[j + 1] == rest[j];
    }
  }

  /**
   * `load_config`: `file` is None when `fopen` fails, otherwise the lines
   * `fgets` returns. The result is the validated record, or None for
   * EXIT_FAILURE.
   */
  function LoadConfig(file: Option<seq<string>>): (r: Option<Config>)
    requires file.Some? ==> FitUntilFailure(file.value)
    ensures file.None? ==> r.None?
    ensures r.Some? ==> r.value.port > 0 && r.value.maxconns > 0 && (r.value.dns == 0 || r.value.dns == 1)
    ensures r.Some? ==> forall i :: 0 <= i < |file.value| ==> !Rejects(file.value[i])
    ensures r.Some? <==> file.Some? && (forall i :: 0 <= i < |file.value| ==> !Rejects(file.value[i]))
                         && CheckConfig(Settled(file.value))
    ensures r.Some? ==> r.value == Settled(file.value)
  {
    match file
    case None => None
    case Some(lines) =>
      match ParseLines(lines, Zero)
      case None => None
      case Some(c) =>
        GoodEverywhere(lines, Rejects, AtoiFits);
        assert AllFit(lines);
        ParsedIsSettled(lines);
        if CheckConfig(c) then Some(c) else None
  }

  /** A rejected first line ends the load: nothing is asked of the lines after it, which are never read. */
  lemma StopsAtFirstFailure(first: string, rest: seq<string>)
    requires AtoiFits(first) && Rejects(first)
    ensures FitUntilFailure([first] + rest)
    ensures LoadConfig(Some([first] + rest)).None?
  {
    var lines := [first] + rest;
    assert lines[0] == first;
    FirstBadCoversAll(lines, Rejects, AtoiFits);
    assert FitUntilFailure(lines);
    assert ParseLines(lines, Zero).None?;
  }

  /** A bad but good first line makes "good up to the first bad line" hold, whatever follows. */
  lemma FirstBadCoversAll(lines: seq<string>, bad: string -> bool, good: string -> bool)
    requires lines != [] && bad(lines[0]) && good(lines[0])
    ensures forall i :: 0 <= i < |lines| && (forall j :: 0 <= j < i ==> !bad(lines[j])) ==> good(lines[i])
  {
    forall i | 0 <= i < |lines| && (forall j :: 0 <= j < i ==> !bad(lines[j]))
      ensures good(lines[i])
    {
      assert i == 0;
    }
  }

  /** The value the last assignment to `k` in `lines` gives, if any. */
  function LastEntry(lines: seq<string>, k: Key): Option<string> {
    if lines == [] then None
    else
      var later := LastEntry(lines[1..], k);
      if later.Some? then later
      else if Entry(lines[0]).Some? && Entry(lines[0]).value.0 == k then Some(Entry(lines[0]).value.1)
      else None
  }

  /** Later lines override earlier ones; a key never assigned keeps its starting value. */
  lemma {:induction false} LastAssignmentWins(lines: seq<string>, c: Config, k: Key)
    requires AllFit(lines)
    requires ParseLines(lines, c).Some?
    ensures Get(ParseLines(lines, c).value, k) ==
      (match LastEntry(lines, k) case None => Get(c, k) case Some(v) => Decode(k, v))
  {
    if lines != [] {
      var c' := ParseLine(lines[0], c).value;
      LastAssignmentWins(lines[1..], c', k);
    }
  }

  /** What the file says about `k`: its last assignment, or the zero `memset` left. */
  function Final(lines: seq<string>, k: Key): (v: Setting)
    ensures v.Num? <==> Numeric(k)
    ensures LastEntry(lines, k).None? ==> v == Get(Zero, k)
  {
    match LastEntry(lines, k)
    case None => Get(Zero, k)
    case Some(value) => Decode(k, value)
  }

  /** The record a file describes, read declaratively key by key. */
  function Settled(lines: seq<string>): (c: Config)
    ensures forall k :: Get(c, k) == Final(lines, k)
  {
    Config(
      Final(lines, Port).n, Final(lines, MaxConns).n,
      Final(lines, User).s, Final(lines, RootDir).s, Final(lines, ErrDir).s,
      Final(lines, CgiCmd).s, Final(lines, CgiDir).s, Final(lines, SyslogName).s,
      Final(lines, Dns).n)
  }

  /** Two records that agree on every key are the same record. */
  lemma SameFields(a: Config, b: Config)
    requires forall k :: Get(a, k) == Get(b, k)
    ensures a == b
  {
    assert Get(a, Port) == Get(b, Port) && Get(a, MaxConns) == Get(b, MaxConns);
    assert Get(a, User) == Get(b, User) && Get(a, RootDir) == Get(b, RootDir);
    assert Get(a, ErrDir) == Get(b, ErrDir) && Get(a, CgiCmd) == Get(b, CgiCmd);
    assert Get(a, CgiDir) == Get(b, CgiDir) && Get(a, SyslogName) == Get(b, SyslogName);
    assert Get(a, Dns) == Get(b, Dns);
  }

  /** The line-by-line loop from the zeroed record builds exactly the declarative record. */
  lemma ParsedIsSettled(lines: seq<string>)
    requires AllFit(lines)
    requires ParseLines(lines, Zero).Some?
    ensures ParseLines(lines, Zero).value == Settled(lines)
  {
    var p := ParseLines(lines, Zero).value;
    forall k | true
      ensures Get(p, k) == Get(Settled(lines), k)
    {
      LastAssignmentWins(lines, Zero, k);
    }
    SameFields(p, Settled(lines));
  }

  // ---------------------------------------------------------------------------
  // Lines as an administrator writes them

  /** A word `%255s` stores whole. */
  predicate Word(w: string) {
    w != [] && NoneIn(w, Whitespace) && |w| <= TOKENMAX
  }

  /** A configuration line in the `KEY = value` layout of the shipped file. */
  function ConfigLine(k: Key, value: string): string {
    KeyName(k) + " = " + value + "\n"
  }

  /** `%255s` stores a whole word that a whitespace character (or the end) follows. */
  lemma ScanWordOf(w: string, rest: string)
    requires Word(w) && (rest == [] || rest[0] in Whitespace)
    ensures ScanWord(w + rest) == w
  {
    assert (w + rest)[0] == w[0];
    SkipNoDelims(w + rest, Whitespace);
    TokenOver(w, rest, Whitespace);
  }

  /** The same with whitespace before the word, which `%s` skips. */
  lemma ScanWordAfter(p: string, w: string, rest: string)
    requires AllIn(p, Whitespace) && Word(w) && (rest == [] || rest[0] in Whitespace)
    ensures ScanWord(p + (w + rest)) == w
  {
    SkipDelimsOver(p, w + rest, Whitespace);
    ScanWordOf(w, rest);
  }

  /** The steps of `sscanf` on one line, taken one at a time. */
  lemma ScanSteps(line: string, a: string, key: string, b: string, value: string)
    requires SkipDelims(line, Whitespace) == a && ScanWord(a) == key && key != []
    requires SkipDelims(a[|key|..], Whitespace) == b && b != [] && b[0] == '='
    requires ScanWord(b[1..]) == value && value != []
    ensures ScanKeyValue(line) == Some((key, value))
  {
  }

  /** The whitespace directive of the format skips up to the literal '='. */
  lemma SkipToEquals(gap: string, x: string)
    requires AllIn(gap, Whitespace)
    ensures SkipDelims(gap + ("=" + x), Whitespace) == "=" + x
  {
    var t := "=" + x;
    assert t[0] == '=' && '=' !in Whitespace;
    SkipDelimsOver(gap, t, Whitespace);
    SkipNoDelims(t, Whitespace);
  }

  /** `sscanf` reads back the key and the value of a written `key = value` line. */
  lemma ScanWrittenPair(key: string, value: string)
    requires Word(key) && Word(value)
    ensures ScanKeyValue(key + " = " + value + "\n") == Some((key, value))
  {
    var x := " " + (value + "\n");
    var b := "=" + x;
    var line := key + (" " + b);
    assert key + " = " + value + "\n" == line;
    assert line[0] == key[0];
    SkipNoDelims(line, Whitespace);
    ScanWordOf(key, " " + b);
    assert line[|key|..] == " " + b;
    SkipToEquals(" ", x);
    assert b[1..] == x;
    ScanWordAfter(" ", value, "\n");
    ScanSteps(line, line, key, b, value);
  }

  /**
   * Any layout `sscanf` accepts: optional whitespace, the key, whitespace,
   * '=', optional whitespace, the value, and then anything that starts with
   * whitespace, such as further words, which are dropped.
   */
  lemma ScanLaidOut(lead: string, key: string, gap: string, pad: string, value: string, rest: string)
    requires AllIn(lead, Whitespace) && Word(key)
    requires gap != [] && AllIn(gap, Whitespace) && AllIn(pad, Whitespace)
    requires Word(value) && (rest == [] || rest[0] in Whitespace)
    ensures ScanKeyValue(lead + key + gap + "=" + pad + value + rest) == Some((key, value))
  {
    var y := pad + (value + rest);
    var x := gap + ("=" + y);
    assert lead + key + gap + "=" + pad + value + rest == lead + (key + x);
    assert x[0] == gap[0];
    KeyPart(lead, key, x);
    ValuePart(gap, pad, value, rest);
    ScanSteps(lead + (key + x), key + x, key, "=" + y, value);
  }

  lemma KeyPart(lead: string, key: string, x: string)
    requires AllIn(lead, Whitespace) && Word(key) && x != [] && x[0] in Whitespace
    ensures SkipDelims(lead + (key + x), Whitespace) == key + x
    ensures ScanWord(key + x) == key && (key + x)[|key|..] == x
  {
    SkipDelimsOver(lead, key + x, Whitespace);
    assert (key + x)[0] == key[0];
    SkipNoDelims(key + x, Whitespace);
    ScanWordOf(key, x);
  }

  lemma ValuePart(gap: string, pad: string, value: string, rest: string)
    requires AllIn(gap, Whitespace) && AllIn(pad, Whitespace)
    requires Word(value) && (rest == [] || rest[0] in Whitespace)
    ensures var y := pad + (value + rest);
      SkipDelims(gap + ("=" + y), Whitespace) == "=" + y && ("=" + y)[1..] == y && ScanWord(y) == value
  {
    var y := pad + (value + rest);
    SkipToEquals(gap, y);
    assert ("=" + y)[1..] == y;
    ScanWordAfter(pad, value, rest);
  }

  /** A key glued to its '=' is read as one word, so the line assigns nothing. */
  lemma GluedPairIgnored(word: string, rest: string)
    requires Word(word) && AllIn(rest, Whitespace)
    ensures ScanKeyValue(word + rest).None?
  {
    var line := word + rest;
    assert line[0] == word[0];
    SkipNoDelims(line, Whitespace);
    ScanWordOf(word, rest);
    assert line[|word|..] == rest;
    SkipDelimsOver(rest, [], Whitespace);
    assert rest + [] == rest;
  }

  /** "PORT=80" sets no port. */
  lemma PortWithoutSpacesIgnored()
    ensures Entry("PORT=80\n").None?
  {
    assert Word("PORT=80");
    assert "PORT=80\n" == "PORT=80" + "\n";
    GluedPairIgnored("PORT=80", "\n");
  }

  /** Every key's spelling names that key. */
  lemma KeyOfName(k: Key)
    ensures KeyOf(KeyName(k)) == Some(k)
  {
    match k
    case Port =>
    case MaxConns =>
    case User =>
    case RootDir =>
    case ErrDir =>
    case CgiCmd =>
    case CgiDir =>
    case SyslogName =>
    case Dns =>
  }

  lemma EntrySteps(line: string, word: string, value: string, k: Key)
    requires line != [] && line[0] != '#'
    requires ScanKeyValue(line) == Some((word, value)) && KeyOf(word) == Some(k)
    ensures Entry(line) == Some((k, value))
  {
  }

  /** A written line assigns its key the value written. */
  lemma WrittenLineEntry(k: Key, value: string)
    requires Word(value)
    ensures Entry(ConfigLine(k, value)) == Some((k, value))
  {
    var key := KeyName(k);
    var line := ConfigLine(k, value);
    assert key != [] && NoneIn(key, Whitespace) && key[0] != '#' by {
      match k
      case Port =>
      case MaxConns =>
      case User =>
      case RootDir =>
      case ErrDir =>
      case CgiCmd =>
      case CgiDir =>
      case SyslogName =>
      case Dns =>
    }
    ScanWrittenPair(key, value);
    assert line[0] == key[0];
    KeyOfName(k);
    EntrySteps(line, key, value, k);
  }

  /** A written line sets its own field and nothing else, unless it is a PORT or MAXCONNS reading as 0. */
  lemma WrittenLineAssigns(c: Config, k: Key, value: string)
    requires Word(value) && (Numeric(k) ==> InInt(Atoi(value)))
    ensures AtoiFits(ConfigLine(k, value))
    ensures ParseLine(ConfigLine(k, value), c).None? <==> k in {Port, MaxConns} && Atoi(value) == 0
    ensures ParseLine(ConfigLine(k, value), c).Some? ==>
      Get(ParseLine(ConfigLine(k, value), c).value, k) == Decode(k, value)
      && forall k' :: k' != k ==> Get(ParseLine(ConfigLine(k, value), c).value, k') == Get(c, k')
  {
    WrittenLineEntry(k, value);
  }
}

=== FILE: dispatch.dfy ===
/**
 * `response` of response.c: what one connection gets back. The request
 * buffer is parsed, routed to the handler of its method, and every status
 * other than 200 is followed by the error handler's answer.
 */
module Dispatch {
  import opened Options
  import opened Strings
  import opened ConfigFile
  import opened Wire
  import opened Request
  import opened Responders

  /** What a connection sees: nothing when `recv` fails, else the status and the bytes written. */
  datatype Reply = NoReply | Reply(status: int, out: string, command: Option<string>)

  /** GET "/" is served as GET "/index.html". */
  function GetRoute(route: string): (r: string)
    ensures route != "/" ==> r == route
  {
    if route == "/" then "/index.html" else route
  }

  /** POST is only routed when its route starts with this. */
  const CgiPrefix := "/cgi/"

  /** The file path a parsed GET or HEAD builds stays inside its buffer. */
  predicate ServeDefined(conf: Config, r: Request) {
    match r.verb
    case GET => PathFits(conf.rootDir, GetRoute(r.route))
    case HEAD => PathFits(conf.rootDir, r.route)
    case POST => true
  }

  /** The C string `recv` leaves in the zeroed REQUESTSIZE buffer. */
  function Received(bytes: string): string {
    CString(bytes)
  }

  /**
   * The received bytes on which `response` is defined: they fit the buffer
   * and leave a NUL in it, the text parses without undefined behaviour, and
   * a parsed GET or HEAD names a path that fits.
   */
  predicate Defined(conf: Config, bytes: string) {
    && |bytes| <= REQUESTSIZE
    && (|bytes| < REQUESTSIZE || '\0' in bytes)
    && Parseable(Received(bytes))
    && match ParseRequest(Received(bytes))
       case Parsed(r) => ServeDefined(conf, r)
       case Malformed(_) => true
  }

  /** The switch of `response` on a parsed request. */
  function Serve(conf: Config, env: Env, r: Request): (o: Outcome)
    requires WellFormed(r) && ServeDefined(conf, r)
    ensures o.status in {200, 400, 404, 500}
    ensures o.command.Some? <==> r.verb == POST && StartsWith(r.route, CgiPrefix)
    ensures r.verb == POST && !StartsWith(r.route, CgiPrefix) ==> o == Outcome(400, [], None)
  {
    match r.verb
    case GET => GetResponse(conf, env, GetRoute(r.route))
    case HEAD => HeadResponse(conf, env, r.route)
    case POST =>
      if StartsWith(r.route, CgiPrefix) then PostResponse(conf, env, r.route[|CgiPrefix|..], r.params.value)
      else Outcome(400, [], None)
  }

  /** The parse `response` acts on. */
  function ParseOf(bytes: string): (p: Parse)
    requires Parseable(Received(bytes))
    ensures p.Parsed? ==> WellFormed(p.req)
  {
    ParseRequest(Received(bytes))
  }

  /** A parse `response` can act on without undefined behaviour. */
  predicate Servable(conf: Config, p: Parse) {
    p.Parsed? ==> WellFormed(p.req) && ServeDefined(conf, p.req)
  }

  /** The status `response` settles on and what the handlers wrote on the way. */
  function Handle(conf: Config, env: Env, p: Parse): (o: Outcome)
    requires Servable(conf, p)
    ensures o.status in {200, 400, 404, 500}
    ensures p.Malformed? ==> o == Outcome(400, [], None)
  {
    if p.Parsed? then Serve(conf, env, p.req) else Outcome(400, [], None)
  }

  /** The handlers' output, followed by the error handler's when the status is not 200. */
  function Answer(conf: Config, env: Env, p: Parse): (reply: Reply)
    requires Servable(conf, p)
    ensures reply.Reply? && reply.status in {200, 400, 404, 500}
    ensures var o := Handle(conf, env, p);
      reply.status == o.status && reply.command == o.command && StartsWith(reply.out, o.out)
    ensures var o := Handle(conf, env, p);
      if o.status == 200 then reply.out == o.out
      else StartsWith(reply.out[|o.out|..], SendStatus(o.status))
    ensures var o := Handle(conf, env, p);
      o.status != 200 ==> reply.out == o.out + ErrorHandler(conf, env, o.status, p.Type())
  {
    var o := Handle(conf, env, p);
    var err := if o.status != 200 then ErrorHandler(conf, env, o.status, p.Type()) else [];
    Reply(o.status, o.out + err, o.command)
  }

  /** `response`: `received` is None when `recv` fails. */
  function Respond(conf: Config, env: Env, received: Option<string>): (reply: Reply)
    requires received.Some? ==> Defined(conf, received.value)
    ensures reply.NoReply? <==> received.None?
    ensures reply.Reply? ==> reply.status in {200, 400, 404, 500}
  {
    match received
    case None => NoReply
    case Some(bytes) => Answer(conf, env, ParseOf(bytes))
  }

  /** A request that does not parse is answered 400, with the error page the method type picks. */
  lemma MalformedIsBadRequest(conf: Config, env: Env, verb: Method)
    ensures Answer(conf, env, Malformed(verb)) == Reply(400, ErrorHandler(conf, env, 400, verb), None)
  {
  }

  /** GET "/" and GET "/index.html" get the same answer. */
  lemma IndexRewrite(conf: Config, env: Env, params: Option<string>, version: string)
    requires IsVersion(version) && PathFits(conf.rootDir, "/index.html")
    ensures var slash := Parsed(Request(GET, "/", params, version));
      var index := Parsed(Request(GET, "/index.html", params, version));
      Servable(conf, slash) && Servable(conf, index) &&
      Answer(conf, env, slash) == Answer(conf, env, index)
  {
    IndexRoutes();
    SameGetPath(conf, env, "/", "/index.html", params, version);
  }

  /** Both spellings of the index route are plain routes that `response` sends to the same file. */
  lemma IndexRoutes()
    ensures "/" != [] && NoneIn("/", Blank) && '?' !in "/"
    ensures "/index.html" != [] && NoneIn("/index.html", Blank) && '?' !in "/index.html"
    ensures GetRoute("/") == "/index.html" == GetRoute("/index.html")
  {
  }

  /** Two GET routes that `response` rewrites to the same path get the same answer. */
  lemma SameGetPath(conf: Config, env: Env, a: string, b: string, params: Option<string>, version: string)
    requires Servable(conf, Parsed(Request(GET, a, params, version)))
    requires Servable(conf, Parsed(Request(GET, b, params, version)))
    requires GetRoute(a) == GetRoute(b)
    ensures Answer(conf, env, Parsed(Request(GET, a, params, version))) ==
            Answer(conf, env, Parsed(Request(GET, b, params, version)))
  {
    var pa := Parsed(Request(GET, a, params, version));
    var pb := Parsed(Request(GET, b, params, version));
    assert Handle(conf, env, pa) == GetResponse(conf, env, GetRoute(a));
    assert Handle(conf, env, pb) == GetResponse(conf, env, GetRoute(b));
    assert pa.Type() == pb.Type();
  }

  /**
   * A HEAD request never gets a body: a readable file gets its head, any
   * other route the head of the 404 page.
   */
  lemma HeadNeverHasBody(conf: Config, env: Env, r: Request)
    requires Servable(conf, Parsed(r)) && r.verb == HEAD
    ensures var path := conf.rootDir + r.route;
      var reply := Answer(conf, env, Parsed(r));
      if path in env.readable then reply == Reply(200, OkHead(env, path), None)
      else reply == Reply(404, ErrorHead(env, ErrorPagePath(conf.errDir, 404), 404), None)
  {
    ErrorHandlerParts(conf, env, 404, HEAD);
    var o := HeadResponse(conf, env, r.route);
    assert Handle(conf, env, Parsed(r)) == o;
    if o.status == 404 {
      assert o.out + ErrorHandler(conf, env, 404, HEAD) == ErrorHandler(conf, env, 404, HEAD);
    } else {
      assert o.out + [] == o.out;
    }
  }

  /** POST outside "/cgi/" runs nothing and is answered 400. */
  lemma PostOutsideCgiRejected(conf: Config, env: Env, r: Request)
    requires Servable(conf, Parsed(r))
    requires r.verb == POST && !StartsWith(r.route, CgiPrefix)
    ensures Answer(conf, env, Parsed(r)) == Reply(400, ErrorHandler(conf, env, 400, POST), None)
  {
  }

  /**
   * A command is run exactly for a parsed POST under "/cgi/", and it is the
   * command built from the rest of the route and the parameters.
   */
  lemma CommandOnlyForCgiPost(conf: Config, env: Env, p: Parse)
    requires Servable(conf, p)
    ensures var reply := Answer(conf, env, p);
      && (reply.command.Some? <==> p.Parsed? && p.req.verb == POST && StartsWith(p.req.route, CgiPrefix))
      && (reply.command.Some? ==>
            reply.command.value == CgiCommand(conf, p.req.route[|CgiPrefix|..], p.req.params.value))
  {
  }

  /**
   * Every answer opens with the status line of its status, except a GET
   * whose file could not be sent: that one opens with "200 OK" although it
   * ends up 500.
   */
  lemma StatusLineFirst(conf: Config, env: Env, p: Parse)
    requires Servable(conf, p)
    ensures var reply := Answer(conf, env, p);
      if reply.status == 500 && p.Type() == GET then StartsWith(reply.out, SendStatus(200))
      else StartsWith(reply.out, SendStatus(reply.status))
  {
    var o := Handle(conf, env, p);
    if o.status == 200 {
      OkOutcomeOpensWithStatus(conf, env, p);
      PrefixExtends(o.out, [], SendStatus(200));
    } else if o.out == [] {
      assert [] + ErrorHandler(conf, env, o.status, p.Type()) == ErrorHandler(conf, env, o.status, p.Type());
    } else {
      assert p.Parsed? && p.req.verb == GET && o.status == 500;
      PrefixExtends(o.out, ErrorHandler(conf, env, o.status, p.Type()), SendStatus(200));
    }
  }

  /** A 200 from any handler starts with the 200 status line. */
  lemma OkOutcomeOpensWithStatus(conf: Config, env: Env, p: Parse)
    requires Servable(conf, p) && Handle(conf, env, p).status == 200
    ensures StartsWith(Handle(conf, env, p).out, SendStatus(200))
  {
    var r := p.req;
    assert Handle(conf, env, p) == Serve(conf, env, r);
    match r.verb
    case GET => GetOkOpens(conf, env, GetRoute(r.route));
    case HEAD => HeadOkOpens(conf, env, r.route);
    case POST => PostOkOpens(conf, env, r.route[|CgiPrefix|..], r.params.value);
  }

  lemma GetOkOpens(conf: Config, env: Env, route: string)
    requires PathFits(conf.rootDir, route) && GetResponse(conf, env, route).status == 200
    ensures StartsWith(GetResponse(conf, env, route).out, SendStatus(200))
  {
    var path := conf.rootDir + route;
    var rest := SendHeader(FileSize(env, path)) + FileBytes(env, path);
    assert GetResponse(conf, env, route).out == SendStatus(200) + rest;
    OpensWith(SendStatus(200), rest);
  }

  lemma HeadOkOpens(conf: Config, env: Env, route: string)
    requires PathFits(conf.rootDir, route) && HeadResponse(conf, env, route).status == 200
    ensures StartsWith(HeadResponse(conf, env, route).out, SendStatus(200))
  {
    OpensWith(SendStatus(200), SendHeader(FileSize(env, conf.rootDir + route)));
  }

  lemma PostOkOpens(conf: Config, env: Env, script: string, params: string)
    requires PostResponse(conf, env, script, params).status == 200
    ensures StartsWith(PostResponse(conf, env, script, params).out, SendStatus(200))
  {
    OpensWith(SendStatus(200), "\r\n");
    PrefixExtends(SendStatus(200) + "\r\n", env.run(CgiCommand(conf, script, params)).value, SendStatus(200));
  }

  lemma OpensWith(p: string, rest: string)
    ensures StartsWith(p + rest, p)
  {
    assert (p + rest)[..|p|] == p;
  }

  lemma PrefixExtends(s: string, t: string, p: string)
    requires StartsWith(s, p)
    ensures StartsWith(s + t, p)
  {
    assert (s + t)[..|p|] == s[..|p|];
  }

  /** The bytes of a written request with no NUL, short enough for the buffer. */
  predicate Fits(bytes: string) {
    |bytes| < REQUESTSIZE && '\0' !in bytes
  }

  /** A buffer that parses to `r` is one `response` is defined on, when `r` names a path that fits. */
  lemma DefinedWhenParsed(conf: Config, bytes: string, r: Request)
    requires Fits(bytes) && Parseable(bytes) && ParseRequest(bytes) == Parsed(r)
    requires ServeDefined(conf, r)
    ensures Defined(conf, bytes) && ParseOf(bytes) == Parsed(r)
  {
    CStringOfNulFree(bytes);
  }

  /** GET of a readable file that can be sent answers 200 with the file. */
  lemma GetServed(conf: Config, env: Env, r: Request)
    requires Servable(conf, Parsed(r)) && r.verb == GET
    requires conf.rootDir + GetRoute(r.route) in env.readable && conf.rootDir + GetRoute(r.route) in env.sendable
    ensures var file := FileBytes(env, conf.rootDir + GetRoute(r.route));
      Answer(conf, env, Parsed(r)) == Reply(200, SendStatus(200) + SendHeader(|file|) + file, None)
  {
    var o := GetResponse(conf, env, GetRoute(r.route));
    assert Handle(conf, env, Parsed(r)) == o;
    assert o.out + [] == o.out;
  }

  /** GET of a path that cannot be read answers 404 with the 404 page. */
  lemma GetNotFound(conf: Config, env: Env, r: Request)
    requires Servable(conf, Parsed(r)) && r.verb == GET
    requires conf.rootDir + GetRoute(r.route) !in env.readable
    ensures Answer(conf, env, Parsed(r)) == Reply(404, ErrorHandler(conf, env, 404, GET), None)
  {
    var o := GetResponse(conf, env, GetRoute(r.route));
    assert Handle(conf, env, Parsed(r)) == o;
    assert [] + ErrorHandler(conf, env, 404, GET) == ErrorHandler(conf, env, 404, GET);
  }

  /**
   * GET of a path that opens but cannot be sent (a directory, say) answers
   * 500: the 200 head already written, then the 500 error answer, which
   * carries the whole 500 page when that page can be sent.
   */
  lemma GetSendFails(conf: Config, env: Env, r: Request)
    requires Servable(conf, Parsed(r)) && r.verb == GET
    requires conf.rootDir + GetRoute(r.route) in env.readable && conf.rootDir + GetRoute(r.route) !in env.sendable
    ensures var path := conf.rootDir + GetRoute(r.route);
      Answer(conf, env, Parsed(r)) == Reply(500, OkHead(env, path) + ErrorHandler(conf, env, 500, GET), None)
    ensures var path := conf.rootDir + GetRoute(r.route);
      var page := ErrorPagePath(conf.errDir, 500);
      page in env.readable && page in env.sendable ==>
        Answer(conf, env, Parsed(r)).out ==
          OkHead(env, path) + (SendStatus(500) + SendHeader(|FileBytes(env, page)|) + FileBytes(env, page))
  {
    var o := GetResponse(conf, env, GetRoute(r.route));
    assert Handle(conf, env, Parsed(r)) == o;
    var page := ErrorPagePath(conf.errDir, 500);
    if page in env.readable && page in env.sendable {
      ErrorPageServed(conf, env, 500, GET);
    }
  }

  /**
   * A request for a readable file, received whole, gets "200 OK", the
   * header whose Content-Length is the file's size, and the whole file.
   */
  lemma StaticFileServed(conf: Config, env: Env, bytes: string, r: Request)
    requires Fits(bytes) && Parseable(bytes) && ParseRequest(bytes) == Parsed(r)
    requires r.verb == GET && r.route != "/" && PathFits(conf.rootDir, r.route)
    requires conf.rootDir + r.route in env.readable && conf.rootDir + r.route in env.sendable
    ensures Defined(conf, bytes)
    ensures var file := FileBytes(env, conf.rootDir + r.route);
      Respond(conf, env, Some(bytes)) == Reply(200, SendStatus(200) + SendHeader(|file|) + file, None)
  {
    DefinedWhenParsed(conf, bytes, r);
    GetServed(conf, env, r);
  }

  /** A request for a path that cannot be read, received whole, gets 404 and the 404 page. */
  lemma MissingFileNotFound(conf: Config, env: Env, bytes: string, r: Request)
    requires Fits(bytes) && Parseable(bytes) && ParseRequest(bytes) == Parsed(r)
    requires r.verb == GET && r.route != "/" && PathFits(conf.rootDir, r.route)
    requires conf.rootDir + r.route !in env.readable
    ensures Defined(conf, bytes)
    ensures Respond(conf, env, Some(bytes)) == Reply(404, ErrorHandler(conf, env, 404, GET), None)
  {
    DefinedWhenParsed(conf, bytes, r);
    GetNotFound(conf, env, r);
  }

  /** POST under "/cgi/" runs the command and relays its output after the 200 status line and an empty line. */
  lemma CgiPostAnswered(conf: Config, env: Env, r: Request)
    requires Servable(conf, Parsed(r)) && r.verb == POST && StartsWith(r.route, CgiPrefix)
    ensures var cmd := CgiCommand(conf, r.route[|CgiPrefix|..], r.params.value);
      Answer(conf, env, Parsed(r)) ==
        match env.run(cmd)
        case Some(output) => Reply(200, SendStatus(200) + "\r\n" + output, Some(cmd))
        case None => Reply(500, ErrorHandler(conf, env, 500, POST), Some(cmd))
  {
    var o := PostResponse(conf, env, r.route[|CgiPrefix|..], r.params.value);
    assert Handle(conf, env, Parsed(r)) == o;
    assert o.out + [] == o.out;
    assert [] + ErrorHandler(conf, env, 500, POST) == ErrorHandler(conf, env, 500, POST);
  }
}

=== FILE: http_codes.dfy ===
/**
 * The status lines of http_codes.h, and the catalog of codes and reason
 * phrases they are built from (the Status-Line of section 6.1 of RFC 1945:
 * version, code and reason phrase separated by single spaces).
 */
module HttpCodes {

  const Http200 := "HTTP/1.0 200 OK"
  const Http201 := "HTTP/1.0 201 Created"
  const Http202 := "HTTP/1.0 202 Accepted"
  const Http204 := "HTTP/1.0 204 No Content"
  const Http301 := "HTTP/1.0 301 Moved Permanently"
  const Http302 := "HTTP/1.0 302 Moved Temporarily"
  const Http304 := "HTTP/1.0 304 Not Modified"
  const Http400 := "HTTP/1.0 400 Bad Request"
  const Http401 := "HTTP/1.0 401 Unauthorized"
  const Http403 := "HTTP/1.0 403 Forbidden"
  const Http404 := "HTTP/1.0 404 Not Found"
  const Http500 := "HTTP/1.0 500 Internal Server Error"
  const Http501 := "HTTP/1.0 501 Not Implemented"
  const Http502 := "HTTP/1.0 502 Bad Gateway"
  const Http503 := "HTTP/1.0 503 Service Unavailable"

  /** The status codes the header defines. */
  const Catalog: set<int> := {200, 201, 202, 204, 301, 302, 304, 400, 401, 403, 404, 500, 501, 502, 503}

  /** The reason phrase of each catalog code ("" outside the catalog). */
  function Reason(code: int): string {
    if code == 200 then "OK"
    else if code == 201 then "Created"
    else if code == 202 then "Accepted"
    else if code == 204 then "No Content"
    else if code == 301 then "Moved Permanently"
    else if code == 302 then "Moved Temporarily"
    else if code == 304 then "Not Modified"
    else if code == 400 then "Bad Request"
    else if code == 401 then "Unauthorized"
    else if code == 403 then "Forbidden"
    else if code == 404 then "Not Found"
    else if code == 500 then "Internal Server Error"
    else if code == 501 then "Not Implemented"
    else if code == 502 then "Bad Gateway"
    else if code == 503 then "Service Unavailable"
    else ""
  }

  /** The version every response is written with, whatever the request's. */
  const ResponseVersion := "HTTP/1.0"
}

=== FILE: options.dfy ===
/** The optional value used wherever the C code returns NULL or reports failure. */
module Options {

  datatype Option<+T> = None | Some(value: T) {

    /** The value held, or `default` when there is none. */
    function GetOr(default: T): T {
      match this
      case Some(v) => v
      case None => default
    }
  }
}

=== FILE: request.dfy ===
/**
 * `parse_request` of response.c: the raw request buffer, cut into lines and
 * words with `strtok`, becomes a method, a route, an optional parameter
 * string and a version, or a failure that still remembers the method type.
 */
module Request {
  import opened Options
  import opened Strings

  /** Bytes `recv` may place in the request buffer. */
  const REQUESTSIZE := 10240

  /** Entries of the line-pointer array (the last one holds the final NULL). */
  const REQLINE := 256

  /** `req_type`; HEAD is 0, the value a failed method match leaves behind. */
  datatype Method = HEAD | GET | POST

  datatype Request = Request(verb: Method, route: string, params: Option<string>, version: string)

  /** The outcome of `parse_request`: `req.type` survives a failure and picks the error page's body rule. */
  datatype Parse = Parsed(req: Request) | Malformed(verb: Method) {
    function Type(): Method {
      match this
      case Parsed(r) => r.verb
      case Malformed(m) => m
    }
  }

  const LineBreaks: set<char> := {'\r', '\n'}
  const Space: set<char> := {' '}
  const QueryMark: set<char> := {'?'}

  /** The characters no word of a request line can hold. */
  const Blank: set<char> := {' ', '\r', '\n'}

  /** The lines `strtok(…, "\r\n")` yields. */
  function Lines(text: string): seq<string> {
    Tokens(text, LineBreaks)
  }

  /** The words `strtok(…, " ")` yields on a line. */
  function Words(line: string): seq<string> {
    Tokens(line, Space)
  }

  function MethodName(m: Method): string {
    match m
    case HEAD => "HEAD"
    case GET => "GET"
    case POST => "POST"
  }

  /** The method a request line names by prefix, tried in the order GET, HEAD, POST. */
  function MethodOf(line: string): (r: Option<Method>)
    ensures r.Some? ==> StartsWith(line, MethodName(r.value))
    ensures r.None? ==> forall m :: !StartsWith(line, MethodName(m))
  {
    if StartsWith(line, "GET") then Some(GET)
    else if StartsWith(line, "HEAD") then Some(HEAD)
    else if StartsWith(line, "POST") then Some(POST)
    else None
  }

  predicate IsVersion(v: string) {
    v == "HTTP/1.0" || v == "HTTP/1.1"
  }

  /** A GET request line whose route does not come out NULL: its target is not made only of '?'. */
  predicate RouteDefined(line: string) {
    var w := Words(line);
    StartsWith(line, "GET") && |w| >= 3 && IsVersion(w[2]) ==> Tokens(w[1], QueryMark) != []
  }

  /**
   * Inputs on which `parse_request` is defined: at least one line (else
   * `strncmp` gets NULL), fewer lines than the pointer array holds, and a GET
   * route that is not made only of '?' (else the route becomes NULL).
   */
  predicate Parseable(text: string) {
    var lines := Lines(text);
    lines != [] && |lines| < REQLINE && RouteDefined(lines[0])
  }

  /** What every successfully parsed request satisfies. */
  predicate WellFormed(r: Request) {
    && r.route != []
    && NoneIn(r.route, Blank)
    && IsVersion(r.version)
    && (r.verb == GET ==> '?' !in r.route)
    && (r.verb == POST ==> r.params.Some?)
    && (r.verb == HEAD ==> r.params.None?)
  }

  /**
   * The request line's share of `parse_request`. `trailer` is the buffer's
   * last line when there is more than one line.
   */
  function ParseRequestLine(line: string, trailer: Option<string>): (p: Parse)
    requires NoneIn(line, LineBreaks) && RouteDefined(line)
    ensures var w := Words(line);
      p.Parsed? <==> MethodOf(line).Some? && |w| >= 3 && IsVersion(w[2])
    ensures p.Type() == MethodOf(line).GetOr(HEAD)
    ensures p.Parsed? ==> WellFormed(p.req) && p.req.version == Words(line)[2]
    ensures p.Parsed? && p.req.verb == GET ==>
      var q := Tokens(Words(line)[1], QueryMark);
      p.req.route == q[0] && p.req.params == (if |q| >= 2 then Some(q[1]) else None)
    ensures p.Parsed? && p.req.verb != GET ==> p.req.route == Words(line)[1]
    ensures p.Parsed? && p.req.verb == POST ==> p.req.params == Some(trailer.GetOr(Words(line)[0]))
  {
    WordsAreBlankFree(line);
    match MethodOf(line)
    case None => Malformed(HEAD)
    case Some(m) =>
      var w := Words(line);
      // fewer than two words: no route; fewer than three: no version
      if |w| < 3 || !IsVersion(w[2]) then Malformed(m)
      else
        match m
        case GET =>
          var q := Tokens(w[1], QueryMark);
          TokensInherit(w[1], QueryMark, Blank);
          Parsed(Request(GET, q[0], if |q| >= 2 then Some(q[1]) else None, w[2]))
        case POST =>
          // with a single line, the last "line" is the method word `strtok` cut off
          Parsed(Request(POST, w[1], Some(trailer.GetOr(w[0])), w[2]))
        case HEAD =>
          Parsed(Request(HEAD, w[1], None, w[2]))
  }

  /** `parse_request` on the C string held by the request buffer. */
  function ParseRequest(text: string): (p: Parse)
    requires Parseable(text)
    ensures p.Parsed? ==> WellFormed(p.req)
  {
    var lines := Lines(text);
    ParseRequestLine(lines[0], if |lines| > 1 then Some(lines[|lines| - 1]) else None)
  }

  /** The words of a line hold no space and no line break. */
  lemma WordsAreBlankFree(line: string)
    requires NoneIn(line, LineBreaks)
    ensures forall i :: 0 <= i < |Words(line)| ==> NoneIn(Words(line)[i], Blank)
  {
    TokensInherit(line, Space, LineBreaks);
  }

  /** A request line as a client writes it. */
  function RequestLine(m: Method, target: string, version: string): string {
    MethodName(m) + " " + target + " " + version
  }

  /** A path that may stand in a request line and holds no query mark. */
  predicate PlainTarget(t: string) {
    t != [] && NoneIn(t, {' ', '\r', '\n', '?'})
  }

  /** The last line of `rest`, if it has any. */
  function LastLine(rest: string): Option<string> {
    var more := Lines(rest);
    if more == [] then None else Some(more[|more| - 1])
  }

  /** The parameters a parsed request carries when `rest` follows its request line. */
  function ExpectedParams(m: Method, rest: string): Option<string> {
    if m == POST then Some(LastLine(rest).GetOr(MethodName(POST))) else None
  }

  /** Only the request line and the buffer's last line matter to the parse. */
  lemma ParseSplit(line: string, rest: string)
    requires line != [] && NoneIn(line, LineBreaks) && RouteDefined(line)
    requires rest == [] || rest[0] in LineBreaks
    requires |Lines(rest)| < REQLINE - 1
    ensures Parseable(line + rest)
    ensures ParseRequest(line + rest) == ParseRequestLine(line, LastLine(rest))
  {
    SplitLines(line, rest);
  }

  /** The buffer's lines are the request line followed by the lines of the rest. */
  lemma SplitLines(line: string, rest: string)
    requires line != [] && NoneIn(line, LineBreaks)
    requires rest == [] || rest[0] in LineBreaks
    ensures var lines := Lines(line + rest);
      && lines != [] && lines[0] == line && |lines| == 1 + |Lines(rest)|
      && (if |lines| > 1 then Some(lines[|lines| - 1]) else None) == LastLine(rest)
  {
    LinesAfterRequestLine(line, rest);
    var lines := Lines(line + rest);
    var more := Lines(rest);
    assert lines == [line] + more;
    if |lines| > 1 {
      assert lines[|lines| - 1] == more[|more| - 1];
    }
  }

  lemma WordsOfRequestLine(m: Method, target: string, version: string)
    requires target != [] && NoneIn(target, Blank)
    requires IsVersion(version)
    ensures Words(RequestLine(m, target, version)) == [MethodName(m), target, version]
  {
    var ws := [MethodName(m), target, version];
    assert Join(ws[2..], " ") == version;
    assert Join(ws[1..], " ") == target + " " + version;
    assert Join(ws, " ") == RequestLine(m, target, version);
    TokensOfJoin(ws, " ", Space);
  }

  lemma MethodOfRequestLine(m: Method, target: string, version: string)
    ensures MethodOf(RequestLine(m, target, version)) == Some(m)
  {
    var line := RequestLine(m, target, version);
    assert line[..|MethodName(m)|] == MethodName(m);
    assert line[|MethodName(m)|] == ' ';
  }

  lemma LinesAfterRequestLine(line: string, rest: string)
    requires line != [] && NoneIn(line, LineBreaks)
    requires rest == [] || rest[0] in LineBreaks
    ensures Lines(line + rest) == [line] + Lines(rest)
  {
    TokensCons(line, rest, LineBreaks);
  }

  lemma RequestLineUnbroken(m: Method, target: string, version: string)
    requires NoneIn(target, Blank) && IsVersion(version)
    ensures NoneIn(RequestLine(m, target, version), LineBreaks)
  {
  }

  /** Parsing a written request line gives back its parts. */
  lemma ParseOfRequestLine(m: Method, target: string, version: string, trailer: Option<string>)
    requires PlainTarget(target) && IsVersion(version)
    ensures NoneIn(RequestLine(m, target, version), LineBreaks) && RouteDefined(RequestLine(m, target, version))
    ensures ParseRequestLine(RequestLine(m, target, version), trailer) ==
      Parsed(Request(m, target, if m == POST then Some(trailer.GetOr("POST")) else None, version))
  {
    assert Tokens(target, QueryMark) == [target] by {
      PlainParts(target);
      TokensOfSingle(target, QueryMark);
    }
    MethodNameIsWord(m);
    assert RequestLine(m, target, version) == WrittenLine(MethodName(m), target, version);
    ParseWrittenLine(MethodName(m), m, target, version, trailer);
  }

  /**
   * Writing a request line and parsing it back gives the request: the
   * method, the route, the version, and the parameters each method takes.
   */
  lemma ParseWrittenRequest(m: Method, target: string, version: string, rest: string)
    requires PlainTarget(target) && IsVersion(version)
    requires rest == [] || rest[0] in LineBreaks
    requires |Lines(rest)| < REQLINE - 1
    ensures Parseable(RequestLine(m, target, version) + rest)
    ensures ParseRequest(RequestLine(m, target, version) + rest) ==
      Parsed(Request(m, target, ExpectedParams(m, rest), version))
  {
    ParseOfRequestLine(m, target, version, LastLine(rest));
    ParseSplit(RequestLine(m, target, version), rest);
  }

  /** A GET line whose three words are known, with its target split at the query mark. */
  lemma ParseGetWords(line: string, target: string, version: string, route: string, query: string, trailer: Option<string>)
    requires NoneIn(line, LineBreaks) && MethodOf(line) == Some(GET)
    requires Words(line) == ["GET", target, version] && IsVersion(version)
    requires Tokens(target, QueryMark) == [route, query]
    ensures RouteDefined(line)
    ensures ParseRequestLine(line, trailer) == Parsed(Request(GET, route, Some(query), version))
  {
  }

  lemma GetLineWithQuery(route: string, query: string, version: string, trailer: Option<string>)
    requires PlainTarget(route) && PlainTarget(query) && IsVersion(version)
    ensures NoneIn(RequestLine(GET, route + "?" + query, version), LineBreaks)
    ensures RouteDefined(RequestLine(GET, route + "?" + query, version))
    ensures ParseRequestLine(RequestLine(GET, route + "?" + query, version), trailer) ==
      Parsed(Request(GET, route, Some(query), version))
  {
    QueryTargetWords(route, query, version);
    QueryTokens(route, query);
    ParseGetWords(RequestLine(GET, route + "?" + query, version), route + "?" + query, version, route, query, trailer);
  }

  lemma QueryTargetWords(route: string, query: string, version: string)
    requires PlainTarget(route) && PlainTarget(query) && IsVersion(version)
    ensures NoneIn(RequestLine(GET, route + "?" + query, version), LineBreaks)
    ensures Words(RequestLine(GET, route + "?" + query, version)) == ["GET", route + "?" + query, version]
    ensures MethodOf(RequestLine(GET, route + "?" + query, version)) == Some(GET)
  {
    var target := route + "?" + query;
    NoneInConcat(route, "?", Blank);
    NoneInConcat(route + "?", query, Blank);
    RequestLineUnbroken(GET, target, version);
    WordsOfRequestLine(GET, target, version);
    MethodOfRequestLine(GET, target, version);
  }

  lemma QueryTokens(route: string, query: string)
    requires PlainTarget(route) && PlainTarget(query)
    ensures Tokens(route + "?" + query, QueryMark) == [route, query]
  {
    assert Join([route, query], "?") == route + "?" + query;
    TokensOfJoin([route, query], "?", QueryMark);
  }

  /** A GET target `route?query` parses to the route with the query as parameters. */
  lemma ParseWrittenQuery(route: string, query: string, version: string, rest: string)
    requires PlainTarget(route) && PlainTarget(query) && IsVersion(version)
    requires rest == [] || rest[0] in LineBreaks
    requires |Lines(rest)| < REQLINE - 1
    ensures Parseable(RequestLine(GET, route + "?" + query, version) + rest)
    ensures ParseRequest(RequestLine(GET, route + "?" + query, version) + rest) ==
      Parsed(Request(GET, route, Some(query), version))
  {
    GetLineWithQuery(route, query, version, LastLine(rest));
    ParseSplit(RequestLine(GET, route + "?" + query, version), rest);
  }

  // ---------------------------------------------------------------------------
  // Request lines with any first word and any target

  /** A request line whose first word is `w0`: the method match only reads its prefix. */
  function WrittenLine(w0: string, target: string, version: string): string {
    w0 + " " + target + " " + version
  }

  lemma WordsOfWrittenLine(w0: string, target: string, version: string)
    requires w0 != [] && NoneIn(w0, Blank)
    requires target != [] && NoneIn(target, Blank)
    requires IsVersion(version)
    ensures Words(WrittenLine(w0, target, version)) == [w0, target, version]
  {
    var ws := [w0, target, version];
    assert Join(ws[2..], " ") == version;
    assert Join(ws[1..], " ") == target + " " + version;
    assert Join(ws, " ") == WrittenLine(w0, target, version);
    TokensOfJoin(ws, " ", Space);
  }

  lemma WrittenLineUnbroken(w0: string, target: string, version: string)
    requires NoneIn(w0, Blank) && NoneIn(target, Blank) && IsVersion(version)
    ensures NoneIn(WrittenLine(w0, target, version), LineBreaks)
  {
    var line := WrittenLine(w0, target, version);
    forall i | 0 <= i < |line|
      ensures line[i] !in LineBreaks
    {
      if i < |w0| {
        assert line[i] == w0[i];
      } else if i == |w0| || i == |w0| + 1 + |target| {
        assert line[i] == ' ';
      } else if i < |w0| + 1 + |target| {
        assert line[i] == target[i - |w0| - 1];
      } else {
        assert line[i] == version[i - |w0| - 2 - |target|];
      }
    }
  }

  /** The method match reads only the first word's prefix. */
  lemma MethodOfWord(w0: string, m: Method, tail: string)
    requires StartsWith(w0, MethodName(m))
    ensures MethodOf(w0 + tail) == Some(m)
  {
    var line := w0 + tail;
    assert line[..|MethodName(m)|] == MethodName(m);
    assert line[0] == MethodName(m)[0];
  }

  /** A method's name is a word that starts with itself. */
  lemma MethodNameIsWord(m: Method)
    ensures StartsWith(MethodName(m), MethodName(m)) && NoneIn(MethodName(m), Blank)
  {
    match m
    case GET => assert "GET"[..3] == "GET";
    case HEAD => assert "HEAD"[..4] == "HEAD";
    case POST => assert "POST"[..4] == "POST";
  }

  /** What `parse_request` makes of a request line with first word `w0` and a given target. */
  lemma ParseWrittenLine(w0: string, m: Method, target: string, version: string, trailer: Option<string>)
    requires StartsWith(w0, MethodName(m)) && NoneIn(w0, Blank)
    requires target != [] && NoneIn(target, Blank) && IsVersion(version)
    requires m == GET ==> !AllIn(target, QueryMark)
    ensures NoneIn(WrittenLine(w0, target, version), LineBreaks)
    ensures RouteDefined(WrittenLine(w0, target, version))
    ensures var p := ParseRequestLine(WrittenLine(w0, target, version), trailer);
      && p.Parsed? && p.req.verb == m && p.req.version == version
      && (m != GET ==> p.req.route == target)
      && (m == GET ==> var q := Tokens(target, QueryMark);
            p.req.route == q[0] && p.req.params == (if |q| >= 2 then Some(q[1]) else None))
      && (m == POST ==> p.req.params == Some(trailer.GetOr(w0)))
      && (m == HEAD ==> p.req.params == None)
  {
    var line := WrittenLine(w0, target, version);
    assert NoneIn(line, LineBreaks) by {
      WrittenLineUnbroken(w0, target, version);
    }
    assert Words(line) == [w0, target, version] by {
      WordsOfWrittenLine(w0, target, version);
    }
    assert MethodOf(line) == Some(m) by {
      MethodOfWord(w0, m, " " + target + " " + version);
      assert w0 + (" " + target + " " + version) == line;
    }
    assert m == GET ==> Tokens(target, QueryMark) != [] by {
      TokensOfDelims(target, QueryMark);
    }
    var w := Words(line);
    assert w[0] == w0 && w[1] == target && w[2] == version;
    var p := ParseRequestLine(line, trailer);
    assert p.Parsed?;
    assert p.Type() == m;
    assert p.req.verb == m && p.req.version == version;
  }

  /** Leading '?'s of a GET target are skipped: `strtok` starts the route after them. */
  lemma LeadingMarksSkipped(w0: string, marks: string, route: string, version: string, trailer: Option<string>)
    requires StartsWith(w0, MethodName(GET)) && NoneIn(w0, Blank)
    requires AllIn(marks, QueryMark) && PlainTarget(route) && IsVersion(version)
    ensures NoneIn(WrittenLine(w0, marks + route, version), LineBreaks)
    ensures RouteDefined(WrittenLine(w0, marks + route, version))
    ensures ParseRequestLine(WrittenLine(w0, marks + route, version), trailer) ==
      Parsed(Request(GET, route, None, version))
  {
    var target := marks + route;
    assert NoneIn(target, Blank) && Tokens(target, QueryMark) == [route] by {
      PlainParts(route);
      NoneInConcat(marks, route, Blank);
      TokensOverDelims(marks, route, QueryMark);
      TokensOfSingle(route, QueryMark);
    }
    ParseWrittenLine(w0, GET, target, version, trailer);
  }

  /**
   * GET parameters end at the next run of '?': whatever follows it is
   * dropped, and a longer run between route and parameters is skipped whole.
   */
  lemma ParamsStopAtNextMark(w0: string, route: string, mark: string, query: string, next: string, tail: string,
                             version: string, trailer: Option<string>)
    requires StartsWith(w0, MethodName(GET)) && NoneIn(w0, Blank)
    requires PlainTarget(route) && PlainTarget(query) && NoneIn(tail, Blank) && IsVersion(version)
    requires mark != [] && AllIn(mark, QueryMark) && next != [] && AllIn(next, QueryMark)
    ensures NoneIn(WrittenLine(w0, route + mark + (query + next + tail), version), LineBreaks)
    ensures RouteDefined(WrittenLine(w0, route + mark + (query + next + tail), version))
    ensures ParseRequestLine(WrittenLine(w0, route + mark + (query + next + tail), version), trailer) ==
      Parsed(Request(GET, route, Some(query), version))
  {
    var target := route + mark + (query + next + tail);
    var q := Tokens(target, QueryMark);
    assert target != [] && NoneIn(target, Blank) && |q| >= 2 && q[0] == route && q[1] == query by {
      QueryTail(route, mark, query, next, tail);
    }
    ParseWrittenLine(w0, GET, target, version, trailer);
  }

  /** HEAD and POST take the whole target as the route, '?' included. */
  lemma MarksKeptOutsideGet(w0: string, m: Method, target: string, version: string, trailer: Option<string>)
    requires m != GET && StartsWith(w0, MethodName(m)) && NoneIn(w0, Blank)
    requires target != [] && NoneIn(target, Blank) && IsVersion(version)
    ensures NoneIn(WrittenLine(w0, target, version), LineBreaks)
    ensures RouteDefined(WrittenLine(w0, target, version))
    ensures ParseRequestLine(WrittenLine(w0, target, version), trailer) ==
      Parsed(Request(m, target, if m == POST then Some(trailer.GetOr(w0)) else None, version))
  {
    ParseWrittenLine(w0, m, target, version, trailer);
  }

  /**
   * A POST request of a single line takes its parameters from the last
   * "line", which is the first word `strtok` cut off: any word starting with
   * POST, which is also accepted as the method.
   */
  lemma SinglePostLine(w0: string, target: string, version: string, rest: string)
    requires StartsWith(w0, MethodName(POST)) && NoneIn(w0, Blank)
    requires target != [] && NoneIn(target, Blank) && IsVersion(version)
    requires AllIn(rest, LineBreaks)
    ensures Parseable(WrittenLine(w0, target, version) + rest)
    ensures ParseRequest(WrittenLine(w0, target, version) + rest) ==
      Parsed(Request(POST, target, Some(w0), version))
  {
    var line := WrittenLine(w0, target, version);
    assert |Lines(rest)| < REQLINE - 1 && LastLine(rest) == None by {
      TokensOfDelims(rest, LineBreaks);
    }
    assert rest == [] || rest[0] in LineBreaks;
    assert ParseRequestLine(line, None) == Parsed(Request(POST, target, Some(w0), version)) by {
      MarksKeptOutsideGet(w0, POST, target, version, None);
    }
    MarksKeptOutsideGet(w0, POST, target, version, None);
    ParseSplit(line, rest);
  }

  lemma QueryTail(route: string, mark: string, query: string, next: string, tail: string)
    requires PlainTarget(route) && PlainTarget(query) && NoneIn(tail, Blank)
    requires mark != [] && AllIn(mark, QueryMark) && next != [] && AllIn(next, QueryMark)
    ensures NoneIn(route + mark + (query + next + tail), Blank)
    ensures var q := Tokens(route + mark + (query + next + tail), QueryMark);
      |q| >= 2 && q[0] == route && q[1] == query
  {
    var after := query + next + tail;
    PlainParts(route);
    PlainParts(query);
    assert NoneIn(route + mark + after, Blank) by {
      NoneInConcat(query, next, Blank);
      NoneInConcat(query + next, tail, Blank);
      NoneInConcat(route, mark, Blank);
      NoneInConcat(route + mark, after, Blank);
    }
    var tt := Tokens(tail, QueryMark);
    assert Tokens(route + mark + after, QueryMark) == [route] + Tokens(after, QueryMark) by {
      TokensSeparated(route, mark, after, QueryMark);
    }
    assert Tokens(after, QueryMark) == [query] + tt by {
      TokensSeparated(query, next, tail, QueryMark);
    }
  }

  /** A plain target is a non-empty word free of blanks and of '?'. */
  lemma PlainParts(t: string)
    requires PlainTarget(t)
    ensures t != [] && NoneIn(t, Blank) && NoneIn(t, QueryMark)
  {
  }
}

=== FILE: responders.dfy ===
/**
 * The three method handlers of response.c and its error handler. Each
 * handler yields the status code it returns to `response`, the bytes it
 * wrote to the connection, and for POST the shell command it handed to
 * `popen`.
 */
module Responders {
  import opened Options
  import opened Strings
  import opened HttpCodes
  import opened ConfigFile
  import opened Wire
  import opened Request

  datatype Outcome = Outcome(status: int, out: string, command: Option<string>)

  /** The characters `strtok` cuts the CGI parameter string at. */
  const NotAllowed: set<char> := {' ', '\'', '`'}

  /**
   * `strncpy` then `strncat` into a PATHSIZE buffer stay inside it (and
   * leave it terminated) only while root and route together are shorter.
   */
  predicate PathFits(root: string, route: string) {
    |root| + |route| < PATHSIZE
  }

  /** The head a 200 answer for the file at `path` starts with. */
  function OkHead(env: Env, path: string): string {
    SendStatus(200) + SendHeader(FileSize(env, path))
  }

  /** `get_response`. */
  function GetResponse(conf: Config, env: Env, route: string): (o: Outcome)
    requires PathFits(conf.rootDir, route)
    ensures o.command.None?
    ensures o.status in {200, 404, 500}
    ensures o.status == 404 <==> conf.rootDir + route !in env.readable
    ensures o.status == 200 <==> conf.rootDir + route in env.readable && conf.rootDir + route in env.sendable
    ensures o.status == 404 ==> o.out == []
    ensures o.status == 500 ==> o.out == OkHead(env, conf.rootDir + route)
    ensures o.status == 200 ==> o.out == OkHead(env, conf.rootDir + route) + FileBytes(env, conf.rootDir + route)
  {
    var path := conf.rootDir + route;
    if path !in env.readable then Outcome(404, [], None)
    else
      var size := FileSize(env, path);
      match SendContent(env, path, size)
      case None => Outcome(500, OkHead(env, path), None)
      case Some(body) =>
        WholeFileSent(env, path);
        Outcome(200, OkHead(env, path) + body, None)
  }

  /** `head_response`: the same head as GET, never a body, never a send failure. */
  function HeadResponse(conf: Config, env: Env, route: string): (o: Outcome)
    requires PathFits(conf.rootDir, route)
    ensures o.command.None?
    ensures o.status in {200, 404}
    ensures o.status == 200 <==> conf.rootDir + route in env.readable
    ensures o.status == 200 ==> o.out == OkHead(env, conf.rootDir + route)
    ensures o.status == 404 ==> o.out == []
  {
    var path := conf.rootDir + route;
    if path !in env.readable then Outcome(404, [], None)
    else Outcome(200, OkHead(env, path), None)
  }

  /**
   * HEAD answers with exactly the head GET would send before the body, and
   * the two agree on the status unless sending the body fails.
   */
  lemma HeadIsGetWithoutBody(conf: Config, env: Env, route: string)
    requires PathFits(conf.rootDir, route)
    ensures var g := GetResponse(conf, env, route);
      var h := HeadResponse(conf, env, route);
      && (h.status == 404 <==> g.status == 404)
      && (conf.rootDir + route in env.sendable ==> h.status == g.status)
      && (g.status == 200 ==> g.out == h.out + FileBytes(env, conf.rootDir + route))
      && (g.status == 500 ==> g.out == h.out)
  {
  }

  /**
   * The shape `strtok(params, " '`")` leaves `params` in, read back as a C
   * string: a prefix of `params` that stops at a disallowed character (or at
   * the end), holds an allowed character unless it is all of `params`, and
   * holds no disallowed character after its first allowed one.
   */
  predicate CutShape(p: string, r: string) {
    && StartsWith(p, r)
    && (r == p || (p[|r|] in NotAllowed && !AllIn(r, NotAllowed)))
    && forall i, j :: 0 <= i < j < |r| && r[i] !in NotAllowed ==> r[j] !in NotAllowed
  }

  /**
   * `strtok` skips the leading disallowed characters (they stay in the
   * string) and ends the first token with a NUL; a string of disallowed
   * characters only is left alone.
   */
  function CutParams(p: string): (r: string)
    ensures StartsWith(p, r)
  {
    var rest := SkipDelims(p, NotAllowed);
    p[..|p| - |rest| + |Token(rest, NotAllowed)|]
  }

  /** The cut has the shape `strtok` leaves. */
  lemma CutParamsShape(p: string)
    ensures CutShape(p, CutParams(p))
  {
    var rest := SkipDelims(p, NotAllowed);
    var token := Token(rest, NotAllowed);
    var k := |p| - |rest|;
    var r := CutParams(p);
    CutLead(p);
    CutTail(p);
    if r != p {
      assert rest != [] && rest[0] !in NotAllowed;
      assert p[|r|] == rest[|token|];
      assert r[k] !in NotAllowed;
    }
  }

  /** The cut begins with the disallowed characters `strtok` skipped. */
  lemma CutLead(p: string)
    ensures var k := |p| - |SkipDelims(p, NotAllowed)|;
      forall i :: 0 <= i < k ==> CutParams(p)[i] in NotAllowed
  {
    var k := |p| - |SkipDelims(p, NotAllowed)|;
    assert AllIn(p[..k], NotAllowed);
    assert forall i :: 0 <= i < k ==> CutParams(p)[i] == p[..k][i];
  }

  /** After them comes the token, free of disallowed characters. */
  lemma CutTail(p: string)
    ensures var k := |p| - |SkipDelims(p, NotAllowed)|;
      forall i :: k <= i < |CutParams(p)| ==> CutParams(p)[i] !in NotAllowed
  {
    var rest := SkipDelims(p, NotAllowed);
    var token := Token(rest, NotAllowed);
    var k := |p| - |rest|;
    assert rest == p[k..];
    assert forall i :: k <= i < |CutParams(p)| ==> CutParams(p)[i] == token[i - k];
  }

  /** `CutShape` pins the cut down: nothing else has it. */
  lemma CutShapeUnique(p: string, r1: string, r2: string)
    requires CutShape(p, r1) && CutShape(p, r2)
    ensures r1 == r2
  {
    CutShapeNoLonger(p, r1, r2);
    CutShapeNoLonger(p, r2, r1);
    assert r1 == p[..|r1|];
  }

  lemma CutShapeNoLonger(p: string, a: string, b: string)
    requires CutShape(p, a) && CutShape(p, b)
    ensures |a| <= |b|
  {
  }

  /** Cutting twice cuts nothing more. */
  lemma CutParamsIdempotent(p: string)
    ensures CutParams(CutParams(p)) == CutParams(p)
  {
    var r := CutParams(p);
    CutParamsShape(p);
    CutParamsShape(r);
    assert CutShape(r, r);
    CutShapeUnique(r, CutParams(r), r);
  }

  /** Parameters that start with an allowed character keep no disallowed one. */
  lemma CutParamsClean(p: string)
    requires p != [] && p[0] !in NotAllowed
    ensures CutParams(p) != [] && NoneIn(CutParams(p), NotAllowed)
  {
    CutParamsShape(p);
  }

  /** Everything from the first space on is dropped. */
  lemma CutAtSpace(a: string, b: string)
    requires a != [] && NoneIn(a, NotAllowed)
    ensures CutParams(a + " " + b) == a
  {
    var p := a + " " + b;
    assert p[|a|] == ' ';
    assert p[..|a|] == a;
    assert CutShape(p, a) by {
      assert !AllIn(a, NotAllowed) by { assert a[0] !in NotAllowed; }
    }
    CutParamsShape(p);
    CutShapeUnique(p, CutParams(p), a);
  }

  /** Disallowed characters in front of the parameters are kept, not dropped. */
  lemma LeadingQuoteKept(b: string)
    ensures StartsWith(CutParams("'" + b), "'")
  {
    CutParamsShape("'" + b);
  }

  /** The command `snprintf` formats, before truncation to the buffer. */
  function CommandLine(conf: Config, route: string, params: string): string {
    conf.cgiCmd + " " + conf.cgiDir + "/" + route + " '" + CutParams(params) + "'"
  }

  /** The command as it lands in the BUFFSIZE buffer. */
  function CgiCommand(conf: Config, route: string, params: string): (cmd: string)
    ensures |cmd| < BUFFSIZE
    ensures StartsWith(CommandLine(conf, route, params), cmd)
    ensures |CommandLine(conf, route, params)| < BUFFSIZE ==> cmd == CommandLine(conf, route, params)
    ensures |CommandLine(conf, route, params)| >= BUFFSIZE ==> |cmd| == BUFFSIZE - 1
  {
    Truncate(CommandLine(conf, route, params), BUFFSIZE - 1)
  }

  /**
   * A command that fits the buffer ends in the cut parameters between single
   * quotes, and the cut parameters end in an allowed character unless they
   * hold no allowed character at all.
   */
  lemma CommandQuotesParams(conf: Config, route: string, params: string)
    requires |CommandLine(conf, route, params)| < BUFFSIZE
    ensures var cmd := CgiCommand(conf, route, params);
      var q := "'" + CutParams(params) + "'";
      |q| <= |cmd| && cmd[|cmd| - |q|..] == q
  {
    var q := "'" + CutParams(params) + "'";
    var head := conf.cgiCmd + " " + conf.cgiDir + "/" + route + " ";
    assert CommandLine(conf, route, params) == head + q;
  }

  /**
   * `post_response`: run the command; a failed spawn answers 500 having
   * written nothing, otherwise the 200 status line, an empty line and the
   * command's whole output follow.
   */
  function PostResponse(conf: Config, env: Env, route: string, params: string): (o: Outcome)
    ensures o.command == Some(CgiCommand(conf, route, params))
    ensures o.status in {200, 500}
    ensures o.status == 500 <==> env.run(CgiCommand(conf, route, params)).None?
    ensures o.status == 500 ==> o.out == []
    ensures o.status == 200 ==>
      o.out == SendStatus(200) + "\r\n" + env.run(CgiCommand(conf, route, params)).value
  {
    var cmd := CgiCommand(conf, route, params);
    match env.run(cmd)
    case None => Outcome(500, [], Some(cmd))
    case Some(output) => Outcome(200, SendStatus(200) + "\r\n" + output, Some(cmd))
  }

  /** The error page path `snprintf` formats into a PATHSIZE buffer. */
  function ErrorPagePath(errDir: string, code: int): (path: string)
    ensures |path| < PATHSIZE
    ensures StartsWith(errDir + "/" + IntToDec(code) + ".html", path)
    ensures |errDir| + 1 + |IntToDec(code)| + 5 < PATHSIZE ==> path == errDir + "/" + IntToDec(code) + ".html"
    ensures |errDir| + 1 + |IntToDec(code)| + 5 >= PATHSIZE ==> |path| == PATHSIZE - 1
  {
    Truncate(errDir + "/" + IntToDec(code) + ".html", PATHSIZE - 1)
  }

  /** Methods whose error answer carries the page's body. */
  predicate CarriesBody(m: Method) {
    m == GET || m == POST
  }

  /**
   * `error_handler`: when the page cannot be read the status line goes out
   * once on its own, and then, read or not, the status line and header
   * follow, and for GET and POST whatever `send_content` manages to send.
   */
  function ErrorHandler(conf: Config, env: Env, code: int, m: Method): (out: string)
    ensures StartsWith(out, SendStatus(code))
  {
    var path := ErrorPagePath(conf.errDir, code);
    var line := SendStatus(code);
    var short := if path in env.readable then [] else line;
    var size := FileSize(env, path);
    var body := if CarriesBody(m) then SendContent(env, path, size).GetOr([]) else [];
    LeadingLine(short, line, SendHeader(size) + body);
    short + line + (SendHeader(size) + body)
  }

  lemma LeadingLine(short: string, line: string, rest: string)
    requires short == [] || short == line
    ensures StartsWith(short + line + rest, line)
  {
    assert (short + line + rest)[..|line|] == line;
  }

  /** The error head: the status line (twice when the page is unreadable) and the header. */
  function ErrorHead(env: Env, path: string, code: int): string {
    (if path in env.readable then [] else SendStatus(code)) + SendStatus(code) + SendHeader(FileSize(env, path))
  }

  /**
   * The error answer is its head and then the bytes sent of the page; a
   * missing page still gets the header with the size `stat` reported.
   */
  lemma ErrorHandlerParts(conf: Config, env: Env, code: int, m: Method)
    ensures var path := ErrorPagePath(conf.errDir, code);
      var out := ErrorHandler(conf, env, code, m);
      && StartsWith(out, ErrorHead(env, path, code))
      && (path !in env.readable ==> StartsWith(out, SendStatus(code) + SendStatus(code)))
      && (!CarriesBody(m) || path !in env.sendable || path !in env.readable ==> out == ErrorHead(env, path, code))
  {
    var path := ErrorPagePath(conf.errDir, code);
    var line := SendStatus(code);
    var short := if path in env.readable then [] else line;
    var size := FileSize(env, path);
    var body := if CarriesBody(m) then SendContent(env, path, size).GetOr([]) else [];
    HeadThenBody(short, line, SendHeader(size), body);
  }

  lemma HeadThenBody(short: string, line: string, header: string, body: string)
    requires short == [] || short == line
    ensures StartsWith(short + line + (header + body), short + line + header)
    ensures short == line ==> StartsWith(short + line + (header + body), line + line)
    ensures body == [] ==> short + line + (header + body) == short + line + header
  {
    var out := short + line + (header + body);
    assert out == (short + line + header) + body;
    assert out[..|short + line + header|] == short + line + header;
    if short == line {
      assert out[..|line + line|] == (short + line + header)[..|line + line|];
    }
  }

  /** A readable error page goes out once, whole, after its head. */
  lemma ErrorPageServed(conf: Config, env: Env, code: int, m: Method)
    requires ErrorPagePath(conf.errDir, code) in env.readable && ErrorPagePath(conf.errDir, code) in env.sendable && CarriesBody(m)
    ensures var path := ErrorPagePath(conf.errDir, code);
      ErrorHandler(conf, env, code, m) == SendStatus(code) + SendHeader(|FileBytes(env, path)|) + FileBytes(env, path)
  {
    var path := ErrorPagePath(conf.errDir, code);
    var line := SendStatus(code);
    var size := FileSize(env, path);
    var page := FileBytes(env, path);
    assert size == |page|;
    var body := if CarriesBody(m) then SendContent(env, path, size).GetOr([]) else [];
    assert body == page by {
      WholeFileSent(env, path);
    }
    assert ErrorHandler(conf, env, code, m) == [] + line + (SendHeader(size) + body);
    assert [] + line + (SendHeader(size) + body) == line + SendHeader(size) + page;
  }
}

=== FILE: strings.dfy ===
/**
 * The C library string behaviour the server relies on, as pure functions over
 * `seq<char>`: the NUL terminator, `strtok` tokenising, `snprintf` truncation,
 * `%d` rendering and `atoi`.
 */
module Strings {

  /** `p` is a prefix of `s`; `strncmp(s, p, |p|) == 0` for a `p` without NUL. */
  predicate StartsWith(s: string, p: string) {
    |p| <= |s| && s[..|p|] == p
  }

  predicate EndsWith(s: string, p: string) {
    |p| <= |s| && s[|s| - |p|..] == p
  }

  /** Every character of `s` is in `d`. */
  predicate AllIn(s: string, d: set<char>) {
    forall i :: 0 <= i < |s| ==> s[i] in d
  }

  /** No character of `s` is in `d`. */
  predicate NoneIn(s: string, d: set<char>) {
    forall i :: 0 <= i < |s| ==> s[i] !in d
  }

  /** The C string held by a zero-filled buffer: everything before the first NUL. */
  function CString(s: string): (r: string)
    ensures StartsWith(s, r)
    ensures '\0' !in r
    ensures r == s || s[|r|] == '\0'
  {
    if s == [] || s[0] == '\0' then [] else [s[0]] + CString(s[1..])
  }

  /** Without a NUL the whole string is the C string. */
  lemma CStringOfNulFree(s: string)
    requires '\0' !in s
    ensures CString(s) == s
  {
  }

  /** What `snprintf` into a buffer of `n + 1` bytes keeps of `s`. */
  function Truncate(s: string, n: nat): (r: string)
    ensures StartsWith(s, r)
    ensures |s| <= n ==> r == s
    ensures |s| > n ==> |r| == n
  {
    if |s| <= n then s else s[..n]
  }

  // ---------------------------------------------------------------------------
  // strtok

  /** `s` after its leading run of delimiters: where `strtok` starts a token. */
  function SkipDelims(s: string, d: set<char>): (r: string)
    ensures |r| <= |s| && r == s[|s| - |r|..]
    ensures r == [] || r[0] !in d
    ensures AllIn(s[..|s| - |r|], d)
  {
    if s != [] && s[0] in d then SkipDelims(s[1..], d) else s
  }

  /** The longest delimiter-free prefix of `s`: the token `strtok` cuts off. */
  function Token(s: string, d: set<char>): (t: string)
    ensures StartsWith(s, t)
    ensures NoneIn(t, d)
    ensures |t| == |s| || s[|t|] in d
  {
    if s == [] || s[0] in d then [] else [s[0]] + Token(s[1..], d)
  }

  /** `s` with every character of `d` removed. */
  function Strip(s: string, d: set<char>): string {
    if s == [] then [] else (if s[0] in d then [] else [s[0]]) + Strip(s[1..], d)
  }

  function Concat(ts: seq<string>): string {
    if ts == [] then [] else ts[0] + Concat(ts[1..])
  }

  /**
   * The tokens successive `strtok(…, d)` calls return on `s`, in order, until
   * the first NULL: the maximal non-empty runs of characters outside `d`.
   */
  function Tokens(s: string, d: set<char>): (ts: seq<string>)
    ensures forall i :: 0 <= i < |ts| ==> ts[i] != [] && NoneIn(ts[i], d)
    decreases |s|
  {
    var r := SkipDelims(s, d);
    if r == [] then [] else
    var t := Token(r, d);
    [t] + Tokens(r[|t|..], d)
  }

  /** The tokens hold every non-delimiter character of `s`, in order. */
  lemma {:induction false} TokensKeepContent(s: string, d: set<char>)
    ensures Concat(Tokens(s, d)) == Strip(s, d)
    decreases |s|
  {
    var r := SkipDelims(s, d);
    StripSkipped(s, r, d);
    if r != [] {
      var t := Token(r, d);
      StripToken(r, t, d);
      TokensKeepContent(r[|t|..], d);
      var ts := Tokens(s, d);
      assert ts == [t] + Tokens(r[|t|..], d);
      assert ts[1..] == Tokens(r[|t|..], d);
    }
  }

  lemma {:induction false} StripAppend(a: string, b: string, d: set<char>)
    ensures Strip(a + b, d) == Strip(a, d) + Strip(b, d)
  {
    if a != [] {
      assert (a + b)[1..] == a[1..] + b;
      StripAppend(a[1..], b, d);
    } else {
      assert a + b == b;
    }
  }

  lemma {:induction false} StripAllIn(s: string, d: set<char>)
    requires AllIn(s, d)
    ensures Strip(s, d) == []
  {
    if s != [] {
      StripAllIn(s[1..], d);
    }
  }

  lemma {:induction false} StripNoneIn(s: string, d: set<char>)
    requires NoneIn(s, d)
    ensures Strip(s, d) == s
  {
    if s != [] {
      StripNoneIn(s[1..], d);
      assert [s[0]] + s[1..] == s;
    }
  }

  lemma StripSkipped(s: string, r: string, d: set<char>)
    requires |r| <= |s| && r == s[|s| - |r|..]
    requires AllIn(s[..|s| - |r|], d)
    ensures Strip(s, d) == Strip(r, d)
  {
    var p := s[..|s| - |r|];
    assert s == p + r;
    StripAppend(p, r, d);
    StripAllIn(p, d);
  }

  lemma StripToken(r: string, t: string, d: set<char>)
    requires StartsWith(r, t) && NoneIn(t, d)
    ensures Strip(r, d) == t + Strip(r[|t|..], d)
  {
    assert r == t + r[|t|..];
    StripAppend(t, r[|t|..], d);
    StripNoneIn(t, d);
  }

  /** `ts` written out with `sep` between consecutive elements. */
  function Join(ts: seq<string>, sep: string): string {
    if |ts| == 0 then [] else if |ts| == 1 then ts[0] else ts[0] + sep + Join(ts[1..], sep)
  }

  /** `strtok` finds nothing in a string made only of delimiters. */
  lemma TokensOfDelims(s: string, d: set<char>)
    ensures Tokens(s, d) == [] <==> AllIn(s, d)
  {
    var r := SkipDelims(s, d);
    if r != [] {
      assert s[|s| - |r|] == r[0];
      assert !AllIn(s, d);
      assert Tokens(s, d) != [];
    } else {
      assert s[..|s|] == s;
      assert AllIn(s, d);
    }
  }

  /** Nothing is skipped when `s` starts with a non-delimiter. */
  lemma SkipNoDelims(s: string, d: set<char>)
    requires s != [] && s[0] !in d
    ensures SkipDelims(s, d) == s
  {
  }

  lemma {:induction false} SkipDelimsOver(p: string, s: string, d: set<char>)
    requires AllIn(p, d)
    ensures SkipDelims(p + s, d) == SkipDelims(s, d)
  {
    if p != [] {
      assert (p + s)[1..] == p[1..] + s;
      SkipDelimsOver(p[1..], s, d);
    } else {
      assert p + s == s;
    }
  }

  lemma {:induction false} TokenOver(t: string, s: string, d: set<char>)
    requires NoneIn(t, d)
    requires s == [] || s[0] in d
    ensures Token(t + s, d) == t
  {
    if t != [] {
      assert (t + s)[1..] == t[1..] + s;
      TokenOver(t[1..], s, d);
      assert [t[0]] + t[1..] == t;
    } else {
      assert t + s == s;
    }
  }

  /** Leading delimiters do not change the tokens. */
  lemma TokensOverDelims(p: string, s: string, d: set<char>)
    requires AllIn(p, d)
    ensures Tokens(p + s, d) == Tokens(s, d)
  {
    SkipDelimsOver(p, s, d);
  }

  /** A token followed by a delimiter (or the end) is the first token. */
  lemma TokensCons(t: string, rest: string, d: set<char>)
    requires t != [] && NoneIn(t, d)
    requires rest == [] || rest[0] in d
    ensures Tokens(t + rest, d) == [t] + Tokens(rest, d)
  {
    var s := t + rest;
    assert s[0] == t[0];
    assert SkipDelims(s, d) == s;
    TokenOver(t, rest, d);
    assert s[|t|..] == rest;
  }

  /** Tokens only hold characters of `s`: what `s` lacks, they lack. */
  lemma {:induction false} TokensInherit(s: string, d: set<char>, e: set<char>)
    requires NoneIn(s, e)
    ensures forall i :: 0 <= i < |Tokens(s, d)| ==> NoneIn(Tokens(s, d)[i], e)
    decreases |s|
  {
    var r := SkipDelims(s, d);
    if r != [] {
      var t := Token(r, d);
      var rest := r[|t|..];
      SuffixInherits(s, r, e);
      PrefixInherits(r, t, e);
      SuffixInherits(r, rest, e);
      TokensInherit(rest, d, e);
      var ts := Tokens(s, d);
      assert ts == [t] + Tokens(rest, d);
      forall i | 0 <= i < |ts|
        ensures NoneIn(ts[i], e)
      {
        if i > 0 {
          assert ts[i] == Tokens(rest, d)[i - 1];
        }
      }
    }
  }

  lemma SuffixInherits(s: string, r: string, e: set<char>)
    requires NoneIn(s, e) && |r| <= |s| && r == s[|s| - |r|..]
    ensures NoneIn(r, e)
  {
    forall i | 0 <= i < |r|
      ensures r[i] !in e
    {
      assert r[i] == s[|s| - |r| + i];
    }
  }

  lemma PrefixInherits(s: string, t: string, e: set<char>)
    requires NoneIn(s, e) && StartsWith(s, t)
    ensures NoneIn(t, e)
  {
    forall i | 0 <= i < |t|
      ensures t[i] !in e
    {
      assert t[i] == s[i];
    }
  }

  lemma NoneInConcat(a: string, b: string, e: set<char>)
    requires NoneIn(a, e) && NoneIn(b, e)
    ensures NoneIn(a + b, e)
  {
    forall i | 0 <= i < |a + b|
      ensures (a + b)[i] !in e
    {
      if i < |a| {
        assert (a + b)[i] == a[i];
      } else {
        assert (a + b)[i] == b[i - |a|];
      }
    }
  }

  /** Tokenising what `Join` wrote with a delimiter separator gives the pieces back. */
  lemma {:induction false} TokensOfJoin(ts: seq<string>, sep: string, d: set<char>)
    requires forall i :: 0 <= i < |ts| ==> ts[i] != [] && NoneIn(ts[i], d)
    requires sep != [] && AllIn(sep, d)
    ensures Tokens(Join(ts, sep), d) == ts
  {
    if |ts| == 0 {
      TokensOfDelims(Join(ts, sep), d);
    } else if |ts| == 1 {
      TokensOfSingle(ts[0], d);
    } else {
      var tail := Join(ts[1..], sep);
      TokensOfJoin(ts[1..], sep, d);
      assert Join(ts, sep) == ts[0] + sep + tail;
      TokensSeparated(ts[0], sep, tail, d);
      assert Tokens(Join(ts, sep), d) == [ts[0]] + ts[1..];
      assert [ts[0]] + ts[1..] == ts;
    }
  }

  lemma TokensOfSingle(t: string, d: set<char>)
    requires t != [] && NoneIn(t, d)
    ensures Tokens(t, d) == [t]
  {
    assert t + [] == t;
    TokensCons(t, [], d);
    TokensOfDelims([], d);
  }

  lemma TokensSeparated(t: string, sep: string, tail: string, d: set<char>)
    requires t != [] && NoneIn(t, d)
    requires sep != [] && AllIn(sep, d)
    ensures Tokens(t + sep + tail, d) == [t] + Tokens(tail, d)
  {
    assert t + sep + tail == t + (sep + tail);
    TokensCons(t, sep + tail, d);
    TokensOverDelims(sep, tail, d);
  }

  // ---------------------------------------------------------------------------
  // %d and atoi

  predicate IsDigit(c: char) {
    '0' <= c <= '9'
  }

  predicate AllDigits(s: string) {
    forall i :: 0 <= i < |s| ==> IsDigit(s[i])
  }

  function DigitChar(n: nat): (c: char)
    requires n < 10
    ensures IsDigit(c)
  {
    (n + '0' as int) as char
  }

  function DigitValue(c: char): nat
    requires IsDigit(c)
  {
    (c as int) - ('0' as int)
  }

  /** `%d` of a non-negative number: decimal digits without leading zeros. */
  function NatToDec(n: nat): (s: string)
    ensures s != [] && AllDigits(s)
    ensures s[0] == '0' ==> n == 0
  {
    if n < 10 then [DigitChar(n)] else NatToDec(n / 10) + [DigitChar(n % 10)]
  }

  /** `%d` of any number. */
  function IntToDec(i: int): string {
    if i < 0 then "-" + NatToDec(-i) else NatToDec(i)
  }

  /** The number a string of decimal digits denotes. */
  function DecValue(s: string): nat
    requires AllDigits(s)
  {
    if s == [] then 0 else 10 * DecValue(s[..|s| - 1]) + DigitValue(s[|s| - 1])
  }

  lemma {:induction false} DecValueOfNatToDec(n: nat)
    ensures DecValue(NatToDec(n)) == n
  {
    if n >= 10 {
      var s := NatToDec(n);
      assert s[..|s| - 1] == NatToDec(n / 10);
      DecValueOfNatToDec(n / 10);
    }
  }

  /** The characters `isspace` accepts in the C locale. */
  const Whitespace: set<char> := {' ', '\t', '\n', 11 as char, 12 as char, '\r'}

  /** The longest all-digit prefix of `s`. */
  function LeadingDigits(s: string): (p: string)
    ensures StartsWith(s, p) && AllDigits(p)
    ensures |p| == |s| || !IsDigit(s[|p|])
  {
    if s == [] || !IsDigit(s[0]) then [] else [s[0]] + LeadingDigits(s[1..])
  }

  /**
   * `atoi`: leading whitespace, an optional sign, then as many digits as
   * follow; 0 when there are none. Overflow is not modelled (the value is
   * unbounded here; callers require it to fit an `int`).
   */
  function Atoi(s: string): (n: int)
    ensures var t := SkipDelims(s, Whitespace);
      (t == [] || (t[0] != '-' && t[0] != '+' && !IsDigit(t[0]))) ==> n == 0
    ensures n < 0 ==> var t := SkipDelims(s, Whitespace); t != [] && t[0] == '-'
  {
    var t := SkipDelims(s, Whitespace);
    if t != [] && t[0] == '-' then -(DecValue(LeadingDigits(t[1..])) as int)
    else if t != [] && t[0] == '+' then DecValue(LeadingDigits(t[1..]))
    else DecValue(LeadingDigits(t))
  }

  lemma {:induction false} LeadingDigitsOver(p: string, rest: string)
    requires AllDigits(p)
    requires rest == [] || !IsDigit(rest[0])
    ensures LeadingDigits(p + rest) == p
  {
    if p != [] {
      assert (p + rest)[1..] == p[1..] + rest;
      LeadingDigitsOver(p[1..], rest);
      assert [p[0]] + p[1..] == p;
    } else {
      assert p + rest == rest;
    }
  }

  /** `atoi` reads back what `%d` wrote, whatever non-digit follows it. */
  lemma AtoiOfIntToDec(i: int, rest: string)
    requires rest == [] || !IsDigit(rest[0])
    ensures Atoi(IntToDec(i) + rest) == i
  {
    if i < 0 {
      var n: nat := -i;
      assert IntToDec(i) == "-" + NatToDec(n);
      AtoiOfNegative(n, rest);
    } else {
      assert IntToDec(i) == NatToDec(i);
      AtoiOfNatural(i, rest);
    }
  }

  lemma AtoiOfNatural(n: nat, rest: string)
    requires rest == [] || !IsDigit(rest[0])
    ensures Atoi(NatToDec(n) + rest) == n
  {
    var s := NatToDec(n) + rest;
    assert s[0] == NatToDec(n)[0];
    AtoiOfDigit(s);
    LeadingDigitsOver(NatToDec(n), rest);
    DecValueOfNatToDec(n);
  }

  lemma AtoiOfNegative(n: nat, rest: string)
    requires rest == [] || !IsDigit(rest[0])
    ensures Atoi("-" + NatToDec(n) + rest) == -(n as int)
  {
    var digits := NatToDec(n) + rest;
    var s := "-" + digits;
    assert "-" + NatToDec(n) + rest == s;
    AtoiOfMinus(s);
    assert s[1..] == digits;
    LeadingDigitsOver(NatToDec(n), rest);
    DecValueOfNatToDec(n);
  }

  /** Leading zeros add nothing to the value of a digit string. */
  lemma {:induction false} LeadingZerosIgnored(z: string, d: string)
    requires AllIn(z, {'0'}) && AllDigits(d)
    ensures AllDigits(z + d) && DecValue(z + d) == DecValue(d)
    decreases |d|, |z|
  {
    var s := z + d;
    assert AllDigits(s) by {
      forall i | 0 <= i < |s|
        ensures IsDigit(s[i])
      {
        if i < |z| {
          assert s[i] == z[i];
        } else {
          assert s[i] == d[i - |z|];
        }
      }
    }
    if d == [] {
      assert s == z;
      if z != [] {
        var init := z[..|z| - 1];
        assert init + [] == init;
        LeadingZerosIgnored(init, []);
        assert z[|z| - 1] == '0';
      }
    } else {
      assert s[..|s| - 1] == z + d[..|d| - 1];
      LeadingZerosIgnored(z, d[..|d| - 1]);
    }
  }

  /** `atoi` skips leading whitespace and zeros and honours an explicit sign: "  +080" reads 80. */
  lemma AtoiOfPadded(ws: string, sign: string, z: string, n: nat, rest: string)
    requires AllIn(ws, Whitespace) && (sign == [] || sign == ['+'] || sign == ['-']) && AllIn(z, {'0'})
    requires rest == [] || !IsDigit(rest[0])
    ensures Atoi(ws + sign + z + NatToDec(n) + rest) == if sign == ['-'] then -(n as int) else n
  {
    var digits := z + NatToDec(n);
    var x := digits + rest;
    PaddedDigits(z, n, rest);
    var t := sign + x;
    Regroup(ws, sign, z, NatToDec(n), rest);
    if sign == [] {
      assert t == x && t[0] == digits[0];
      Unblank(t[0]);
      AtoiAfterBlanks(ws, t);
      AtoiOfDigit(t);
    } else {
      assert t[0] == sign[0] && t[1..] == x;
      Unblank(t[0]);
      AtoiAfterBlanks(ws, t);
      AtoiOfSign(t);
    }
  }

  /** The digits `atoi` takes from zeros, `%d` of `n` and a non-digit denote `n`. */
  lemma PaddedDigits(z: string, n: nat, rest: string)
    requires AllIn(z, {'0'}) && (rest == [] || !IsDigit(rest[0]))
    ensures AllDigits(z + NatToDec(n)) && (z + NatToDec(n))[0] == (if z == [] then NatToDec(n)[0] else '0')
    ensures DecValue(LeadingDigits(z + NatToDec(n) + rest)) == n
  {
    var d := NatToDec(n);
    LeadingZerosIgnored(z, d);
    LeadingDigitsOver(z + d, rest);
    DecValueOfNatToDec(n);
  }

  /** Five concatenated strings, grouped from the right. */
  lemma Regroup(a: string, b: string, c: string, d: string, e: string)
    ensures a + b + c + d + e == a + (b + ((c + d) + e))
  {
  }

  /** Digits and signs are not whitespace. */
  lemma Unblank(c: char)
    requires IsDigit(c) || c == '+' || c == '-'
    ensures c !in Whitespace
  {
  }

  /** Leading whitespace does not change what `atoi` reads. */
  lemma AtoiAfterBlanks(ws: string, t: string)
    requires AllIn(ws, Whitespace) && t != [] && t[0] !in Whitespace
    ensures Atoi(ws + t) == Atoi(t)
  {
    assert SkipDelims(ws + t, Whitespace) == SkipDelims(t, Whitespace) by {
      SkipDelimsOver(ws, t, Whitespace);
    }
  }

  /** A leading sign: '-' negates the digits after it, '+' keeps them. */
  lemma AtoiOfSign(s: string)
    requires s != [] && (s[0] == '-' || s[0] == '+')
    ensures Atoi(s) == if s[0] == '-' then -(DecValue(LeadingDigits(s[1..])) as int) else DecValue(LeadingDigits(s[1..]))
  {
    SkipNoDelims(s, Whitespace);
  }

  lemma AtoiOfDigit(s: string)
    requires s != [] && IsDigit(s[0])
    ensures Atoi(s) == DecValue(LeadingDigits(s))
  {
    SkipNoDelims(s, Whitespace);
  }

  lemma AtoiOfMinus(s: string)
    requires s != [] && s[0] == '-'
    ensures Atoi(s) == -(DecValue(LeadingDigits(s[1..])) as int)
  {
    SkipNoDelims(s, Whitespace);
  }
}

=== FILE: wire.dfy ===
/**
 * The response writer of response.c: the exact bytes `send_status`,
 * `send_header` and `send_content` put on the connection, over an abstract
 * environment standing for the file system and the CGI subprocess.
 */
module Wire {
  import opened Options
  import opened Strings
  import opened HttpCodes

  /** Size of the scratch buffers `snprintf` formats into. */
  const BUFFSIZE := 1024

  /**
   * The answers the outside world gives the request handler.
   * `readable`: the paths `access(path, R_OK)` accepts (and `open` opens);
   * `files`: the contents of every path `stat` succeeds on;
   * `run`: what `popen` of a command and reading its output to the end yields,
   *   None when the spawn fails;
   * `sendable`: the paths `sendfile` can transfer from once opened (a
   *   directory opens but cannot be sent).
   */
  datatype Env = Env(
    readable: set<string>,
    files: map<string, string>,
    run: string -> Option<string>,
    sendable: set<string>)

  /** The bytes of the file at `path` ("" when `stat` fails). */
  function FileBytes(env: Env, path: string): string {
    if path in env.files then env.files[path] else ""
  }

  /** `get_file_size`: the size `stat` reports, 0 when it fails. */
  function FileSize(env: Env, path: string): (size: nat)
    ensures path !in env.files ==> size == 0
    ensures path in env.files ==> size == |env.files[path]|
  {
    |FileBytes(env, path)|
  }

  /** `resolve_http_code`: the switch lists every code of http_codes.h except 202. */
  function ResolveHttpCode(code: int): (line: string)
    ensures line == "" <==> !Resolved(code)
    ensures line != "" ==> StartsWith(line, ResponseVersion + " ")
  {
    if code == 200 then Http200
    else if code == 201 then Http201
    else if code == 204 then Http204
    else if code == 301 then Http301
    else if code == 302 then Http302
    else if code == 304 then Http304
    else if code == 400 then Http400
    else if code == 401 then Http401
    else if code == 403 then Http403
    else if code == 404 then Http404
    else if code == 500 then Http500
    else if code == 501 then Http501
    else if code == 502 then Http502
    else if code == 503 then Http503
    else ""
  }

  /** The codes `resolve_http_code` has a status line for. */
  predicate Resolved(code: int) {
    code in Catalog && code != 202
  }

  /** `send_status`: the status line and its CRLF. */
  function SendStatus(code: int): (line: string)
    ensures EndsWith(line, "\r\n")
    ensures line == "\r\n" <==> !Resolved(code)
  {
    ResolveHttpCode(code) + "\r\n"
  }

  const ContentType := "Content-Type: text/html\r\n"
  const ContentLengthField := "Content-Length: "

  /** `send_header`: the two header lines and the blank line ending the head. */
  function SendHeader(size: nat): (head: string)
    ensures StartsWith(head, ContentType + ContentLengthField)
    ensures EndsWith(head, "\r\n\r\n")
  {
    ContentType + ContentLengthField + NatToDec(size) + "\r\n\r\n"
  }

  /** `send_content`: the bytes `sendfile` transfers, None for EXIT_FAILURE. */
  function SendContent(env: Env, path: string, size: nat): (r: Option<string>)
    ensures r.Some? <==> path in env.readable && path in env.sendable
    ensures r.Some? ==> StartsWith(FileBytes(env, path), r.value)
    ensures r.Some? ==> |r.value| == if size <= |FileBytes(env, path)| then size else |FileBytes(env, path)|
  {
    if path in env.readable && path in env.sendable then Some(Truncate(FileBytes(env, path), size)) else None
  }

  /**
   * Each status line `resolve_http_code` returns is the RFC 1945 Status-Line
   * built from the catalog; 202 and every code outside the catalog give "".
   */
  lemma ResolveHttpCodeIsCatalog(code: int)
    ensures Resolved(code) ==>
      ResolveHttpCode(code) == ResponseVersion + " " + IntToDec(code) + " " + Reason(code)
    ensures !Resolved(code) ==> ResolveHttpCode(code) == ""
  {
    if Resolved(code) {
      ThreeDigits(code);
      StatusLineCase(code);
    }
  }

  /** The status line of `code` is "HTTP/1.0", its three digits and its reason phrase. */
  predicate StatusLineMatches(code: int)
    requires 100 <= code < 1000
  {
    ResolveHttpCode(code) == ResponseVersion + " " + ThreeDigitChars(code) + " " + Reason(code)
  }

  lemma StatusLineCase(code: int)
    requires Resolved(code)
    ensures StatusLineMatches(code)
  {
    if code == 200 { StatusLine200(); }
    else if code == 201 { StatusLine201(); }
    else if code == 204 { StatusLine204(); }
    else if code == 301 { StatusLine301(); }
    else if code == 302 { StatusLine302(); }
    else if code == 304 { StatusLine304(); }
    else if code == 400 { StatusLine400(); }
    else if code == 401 { StatusLine401(); }
    else if code == 403 { StatusLine403(); }
    else if code == 404 { StatusLine404(); }
    else if code == 500 { StatusLine500(); }
    else if code == 501 { StatusLine501(); }
    else if code == 502 { StatusLine502(); }
    else { StatusLine503(); }
  }

  function ThreeDigitChars(code: int): string
    requires 100 <= code < 1000
  {
    [DigitChar(code / 100), DigitChar(code / 10 % 10), DigitChar(code % 10)]
  }

  /** A status line assembled from a code's digits and reason phrase. */
  lemma LineFromParts(code: int, digits: string, reason: string)
    requires 100 <= code < 1000
    requires ThreeDigitChars(code) == digits && Reason(code) == reason
    requires ResolveHttpCode(code) == ResponseVersion + " " + digits + " " + reason
    ensures StatusLineMatches(code)
  {
  }

  // One lemma per code keeps each literal comparison in a proof of its own.
  lemma StatusLine200() ensures StatusLineMatches(200) {
    assert ThreeDigitChars(200) == "200";
    assert Reason(200) == "OK";
    assert ResolveHttpCode(200) == Http200;
    assert ResponseVersion + " " + "200" + " " + "OK" == Http200;
    LineFromParts(200, "200", "OK");
  }
  lemma StatusLine201() ensures StatusLineMatches(201) {
    assert ThreeDigitChars(201) == "201";
    assert Reason(201) == "Created";
    assert ResolveHttpCode(201) == Http201;
    assert ResponseVersion + " " + "201" + " " + "Created" == Http201;
    LineFromParts(201, "201", "Created");
  }
  lemma StatusLine204() ensures StatusLineMatches(204) {
    assert ThreeDigitChars(204) == "204";
    assert Reason(204) == "No Content";
    assert ResolveHttpCode(204) == Http204;
    assert ResponseVersion + " " + "204" + " " + "No Content" == Http204;
    LineFromParts(204, "204", "No Content");
  }
  lemma StatusLine301() ensures StatusLineMatches(301) {
    assert ThreeDigitChars(301) == "301";
    assert Reason(301) == "Moved Permanently";
    assert ResolveHttpCode(301) == Http301;
    assert ResponseVersion + " " + "301" + " " + "Moved Permanently" == Http301;
    LineFromParts(301, "301", "Moved Permanently");
  }
  lemma StatusLine302() ensures StatusLineMatches(302) {
    assert ThreeDigitChars(302) == "302";
    assert Reason(302) == "Moved Temporarily";
    assert ResolveHttpCode(302) == Http302;
    assert ResponseVersion + " " + "302" + " " + "Moved Temporarily" == Http302;
    LineFromParts(302, "302", "Moved Temporarily");
  }
  lemma StatusLine304() ensures StatusLineMatches(304) {
    assert ThreeDigitChars(304) == "304";
    assert Reason(304) == "Not Modified";
    assert ResolveHttpCode(304) == Http304;
    assert ResponseVersion + " " + "304" + " " + "Not Modified" == Http304;
    LineFromParts(304, "304", "Not Modified");
  }
  lemma StatusLine400() ensures StatusLineMatches(400) {
    assert ThreeDigitChars(400) == "400";
    assert Reason(400) == "Bad Request";
    assert ResolveHttpCode(400) == Http400;
    assert ResponseVersion + " " + "400" + " " + "Bad Request" == Http400;
    LineFromParts(400, "400", "Bad Request");
  }
  lemma StatusLine401() ensures StatusLineMatches(401) {
    assert ThreeDigitChars(401) == "401";
    assert Reason(401) == "Unauthorized";
    assert ResolveHttpCode(401) == Http401;
    assert ResponseVersion + " " + "401" + " " + "Unauthorized" == Http401;
    LineFromParts(401, "401", "Unauthorized");
  }
  lemma StatusLine403() ensures StatusLineMatches(403) {
    assert ThreeDigitChars(403) == "403";
    assert Reason(403) == "Forbidden";
    assert ResolveHttpCode(403) == Http403;
    assert ResponseVersion + " " + "403" + " " + "Forbidden" == Http403;
    LineFromParts(403, "403", "Forbidden");
  }
  lemma StatusLine404() ensures StatusLineMatches(404) {
    assert ThreeDigitChars(404) == "404";
    assert Reason(404) == "Not Found";
    assert ResolveHttpCode(404) == Http404;
    assert ResponseVersion + " " + "404" + " " + "Not Found" == Http404;
    LineFromParts(404, "404", "Not Found");
  }
  lemma StatusLine500() ensures StatusLineMatches(500) {
    assert ThreeDigitChars(500) == "500";
    assert Reason(500) == "Internal Server Error";
    assert ResolveHttpCode(500) == Http500;
    assert ResponseVersion + " " + "500" + " " + "Internal Server Error" == Http500;
    LineFromParts(500, "500", "Internal Server Error");
  }
  lemma StatusLine501() ensures StatusLineMatches(501) {
    assert ThreeDigitChars(501) == "501";
    assert Reason(501) == "Not Implemented";
    assert ResolveHttpCode(501) == Http501;
    assert ResponseVersion + " " + "501" + " " + "Not Implemented" == Http501;
    LineFromParts(501, "501", "Not Implemented");
  }
  lemma StatusLine502() ensures StatusLineMatches(502) {
    assert ThreeDigitChars(502) == "502";
    assert Reason(502) == "Bad Gateway";
    assert ResolveHttpCode(502) == Http502;
    assert ResponseVersion + " " + "502" + " " + "Bad Gateway" == Http502;
    LineFromParts(502, "502", "Bad Gateway");
  }
  lemma StatusLine503() ensures StatusLineMatches(503) {
    assert ThreeDigitChars(503) == "503";
    assert Reason(503) == "Service Unavailable";
    assert ResolveHttpCode(503) == Http503;
    assert ResponseVersion + " " + "503" + " " + "Service Unavailable" == Http503;
    LineFromParts(503, "503", "Service Unavailable");
  }

  lemma ThreeDigits(n: nat)
    requires 100 <= n < 1000
    ensures IntToDec(n) == ThreeDigitChars(n)
  {
    assert NatToDec(n / 100) == [DigitChar(n / 100)];
    assert NatToDec(n / 10) == [DigitChar(n / 100), DigitChar(n / 10 % 10)];
  }

  /** A client reading the number after "HTTP/1.0 " gets the code back. */
  lemma StatusCodeReadsBack(code: int)
    requires Resolved(code)
    ensures StartsWith(SendStatus(code), ResponseVersion + " ")
    ensures Atoi(SendStatus(code)[|ResponseVersion| + 1..]) == code
  {
    ResolveHttpCodeIsCatalog(code);
    var rest := " " + Reason(code) + "\r\n";
    assert SendStatus(code) == ResponseVersion + " " + (IntToDec(code) + rest);
    assert SendStatus(code)[|ResponseVersion| + 1..] == IntToDec(code) + rest;
    AtoiOfIntToDec(code, rest);
  }

  /** Unknown codes still give a terminated (empty) status line, never a fault. */
  lemma UnknownCodeGivesBareLine(code: int)
    ensures SendStatus(code) == "\r\n" <==> !Resolved(code)
  {
    ResolveHttpCodeIsCatalog(code);
  }

  /**
   * The head ends with a blank line, and reading the Content-Length field
   * with `atoi` gives the size back.
   */
  lemma ContentLengthReadsBack(size: nat)
    ensures StartsWith(SendHeader(size), ContentType + ContentLengthField)
    ensures Atoi(SendHeader(size)[|ContentType + ContentLengthField|..]) == size
    ensures SendHeader(size)[|SendHeader(size)| - 4..] == "\r\n\r\n"
  {
    var h := SendHeader(size);
    var p := ContentType + ContentLengthField;
    assert h == p + (NatToDec(size) + "\r\n\r\n");
    assert h[|p|..] == IntToDec(size) + "\r\n\r\n";
    AtoiOfIntToDec(size, "\r\n\r\n");
  }

  /** Sending a file with the size `stat` reported transfers exactly its bytes. */
  lemma WholeFileSent(env: Env, path: string)
    ensures SendContent(env, path, FileSize(env, path)).Some? <==> path in env.readable && path in env.sendable
    ensures SendContent(env, path, FileSize(env, path)).Some? ==>
      SendContent(env, path, FileSize(env, path)).value == FileBytes(env, path)
  {
  }
}
